=== FILE: README.md ===
# User accounts, sessions and channels of a video-sharing backend, in Dafny

This project models the user side of an Express/Mongoose video-sharing
backend:

- **The `User` document and its schema.** It holds the username and email, which are unique, lower-cased and trimmed. It also holds a trimmed full name, the avatar and cover URLs, the watch history, the hashed password and an optional refresh token.
- **The user controller.** This covers token rotation (`generateAccessandRefreshToken`), registration, login, logout, access-token refresh, password change, the account-details update, a channel's profile with its subscription counts, and a user's watch history.
- **The central `errorHandler` middleware.** It turns every thrown value into a JSON error reply.

Each handler is a pure function. It takes the users collection (a map from
document id to `User`) and returns what the handler answers: a success status
with its payload, or the thrown error. It also returns the collection after
the handler runs. The error middleware is a separate function that turns a
thrown error into the HTTP status and body. Code the controller calls but that
this model does not contain becomes a parameter:

- password checking, password hashing and refresh-token verification are the three fields of `Session.Crypto`;
- the token pair a rotation signs is `minted`, or `None` when signing or saving throws;
- the outcome of each image upload is an `Accounts.Upload`;
- the id the database assigns is `freshId`;
- `NODE_ENV` is `env`.

Where the code has an evident defect, the model follows the code as written.
It then proves what the defect does and gives a corrected variant next to it,
each with its own contract (see "## Findings"). Five behaviours are as
written:

- The refresh handler answers every failure after its first check with 500.
- A successful refresh hands the client no new refresh token.
- The channel profile's "subscribed to" lookup joins on the channel, so it repeats the subscribers.
- The channel profile never succeeds once a channel matches.
- A watch-history entry's owner carries no full name.

Modules, in dependency order:

- `JsValues`: optional values, JavaScript truthiness, `String.prototype.trim` over the ECMAScript white-space set, and ASCII `toLowerCase`.
- `UserModel`: the `User` document, the collection invariant (normalised fields, unique username and email), the setters, `findOne` on `$or`, and sanitising.
- `Errors`: `apiError`, foreign errors, and the `errorHandler` middleware.
- `Session`: rotation, login, logout, refresh (as written and fixed), and password change.
- `Accounts`: registration and the account-details update.
- `SocialGraph`: subscriptions as edges, the channel profile (as written and fixed), and the watch history (as written and fixed).

Some further behaviour is modelled as written, although it may not be what the authors meant:

- `getUserChannelProfile` lower-cases the requested username but does not trim it. Its `$match` does not go through the schema's setters.
- A missing cover image is answered "Avatar is missing!". The avatar uploaded just before is never deleted.
- `updateAccountDetails` answers a missing field with 401 rather than 400.
- `updateAccountDetails` puts the handler function itself, not the updated document, into its success reply. The model's reply carries no payload (`Step<()>`) and states only the status 200.
- `updateAccountDetails` does not run the schema's validators, so a full name made of spaces is stored as "".

## Model

| member | source | states |
|---|---|---|
| JsValues.Trim | src/models/user.models.js:11 | The `trim` setter: the result is a contiguous piece of the input with only white space cut from either side, carries no white space at either end, and is empty exactly when the input is all white space |
| JsValues.TrimIdempotent | src/models/user.models.js:11 | Trimming twice is trimming once |
| JsValues.TrimFixesExactlyTrimmed | src/models/user.models.js:23 | Trimming leaves a string unchanged exactly when it is already trimmed |
| JsValues.Lower | src/controllers/user.controller.js:90 | `toLowerCase` keeps the length and maps every character through the ASCII case mapping, so the result has no upper-case letter |
| JsValues.LowerFixesExactlyLowerCase | src/models/user.models.js:10 | Lower-casing leaves a string unchanged exactly when it has no upper-case letter |
| JsValues.LowerIdempotent | src/models/user.models.js:17 | Lower-casing twice is lower-casing once |
| JsValues.LowerCommutesWithTrimStart | src/models/user.models.js:10-11 | Lower-casing commutes with removing leading white space |
| JsValues.LowerCommutesWithTrimEnd | src/models/user.models.js:10-11 | Lower-casing commutes with removing trailing white space |
| JsValues.LowerCommutesWithTrim | src/models/user.models.js:10-11 | The order in which the two setters run does not matter |
| UserModel.Canonical | src/models/user.models.js:6-19 | A stored username or email is the input trimmed and then lower-cased; it has no upper-case letter and no surrounding white space, and is empty exactly when the input was all white space |
| UserModel.CanonicalFixesExactlyCanonical | src/models/user.models.js:6-19 | The setters fix exactly the canonical strings, so applying them twice is applying them once |
| UserModel.CanonicalAbsorbsLower | src/controllers/user.controller.js:90 | Calling `toLowerCase` before the setters changes nothing |
| UserModel.Sanitise | src/controllers/user.controller.js:95-97 | The sanitised view keeps the document's id, and putting the password and refresh token back gives the stored document again |
| UserModel.SanitiseForgetsExactlySecrets | src/controllers/user.controller.js:95-97 | `select("-password -refreshToken")` hides exactly the password and the refresh token: two documents look alike to a client exactly when they differ at most there |
| UserModel.PutPreservesWellFormed | src/models/user.models.js:6-25 | Writing a normalised document that breaks neither unique index keeps the collection well formed |
| UserModel.LeastExists | src/controllers/user.controller.js:139-141 | Every non-empty set of ids has a least element, so `findOne` can always pick one |
| UserModel.MatchesUsernameOrEmail | src/controllers/user.controller.js:45-47 | The `$or` filter with the setters applied to the query: an empty query matches nothing, and a document's own canonical username or email matches it |
| UserModel.MatchesExactlyWhenCanonical | src/controllers/user.controller.js:139-141 | Looking up canonical values matches exactly the documents that store one of them |
| UserModel.FindOne | src/controllers/user.controller.js:45-47 | `findOne` on username or email, with the setters applied to the query values: nothing exactly when no document matches; otherwise a matching document, the least-id one |
| Errors.Wrap | src/middlewares/error.middlewares.js:10-31 | A foreign error's own truthy status, otherwise 400 for a mongoose error and 500 for others; its own non-empty message, otherwise "Something went wrong"; its error list or none; its stack |
| Errors.Normalise | src/middlewares/error.middlewares.js:10 | An `apiError` passes through unchanged; anything else is wrapped |
| Errors.ErrorHandler | src/middlewares/error.middlewares.js:5-44 | The reply status equals the body's status code and is never 0 (a 0 status becomes 500); an error's own status is kept; success is false; the message is the normalised error's (an `apiError`'s own, a foreign error's truthy message, otherwise "Something went wrong"); the stack is included exactly in development, and it is the error's own stack |
| Errors.HandlingWrappedIsHandlingForeign | src/middlewares/error.middlewares.js:26-37 | Answering a foreign error equals answering the `apiError` it is wrapped into, and normalising is idempotent |
| Errors.ReplyStatusChoices | src/middlewares/error.middlewares.js:11-20 | Every reply status is the error's own status, 400 for a mongoose error without one, or 500 |
| Errors.StackVisibleOnlyInDevelopment | src/middlewares/error.middlewares.js:39 | Two errors that differ only in their stack get identical replies exactly when not in development |
| Session.CookieOptionsFor | src/controllers/user.controller.js:159-164 | Cookies are always `httpOnly`, and `secure` exactly in production |
| Session.GenerateAccessAndRefreshToken | src/controllers/user.controller.js:13-31 | Succeeds exactly when the user exists and signing succeeds; then stores the new refresh token and changes nothing else; every failure, a missing user included, is the single 500 and writes nothing |
| Session.LoginUser | src/controllers/user.controller.js:125-177 | In order: 400 for a missing email, username or password; 404 when nobody matches; 401 for a wrong password; the rotation's 500. Succeeds exactly when the request authenticates and rotation succeeds. The reply is the sanitised user, both tokens and two cookies; only that user's refresh token changes |
| Session.LogOutUser | src/controllers/user.controller.js:179-199 | Always 200; clears the user's stored refresh token and nothing else; clears both cookies with the same options |
| Session.Incoming | src/controllers/user.controller.js:202-203 | The cookie's token when it is truthy, otherwise the body's (whatever it is); truthy exactly when one of them is |
| Session.RefreshAccessToken | src/controllers/user.controller.js:201-248 | As written: 401 exactly when no token is presented; every other failure is the one 500; succeeds exactly for a verifying, current token with rotation succeeding, answering 200; the body then carries no refresh token and the refresh cookie is "undefined" |
| Session.RefreshAccessTokenFixed | src/controllers/user.controller.js:205-223 | As intended: 401 exactly when the token is missing, fails to verify, names no user or is not that user's current token; success answers 200 and hands back and stores the new refresh token |
| Session.ChangeCurrentPassword | src/controllers/user.controller.js:250-267 | A missing user is a runtime TypeError with no status; a wrong old password is 401; otherwise 200, and only the password changes, to the hash of the new one |
| Session.RefreshTokenChangesPreserveWellFormed | src/controllers/user.controller.js:22-23 | Rotation and logout keep the collection well formed |
| Session.PasswordChangesPreserveWellFormed | src/controllers/user.controller.js:261-263 | A password change keeps the collection well formed |
| Session.LogoutRevokesRefresh | src/controllers/user.controller.js:179-223 | After logout no token is current for that user: the refresh is answered 500 as written and 401 as intended, and nothing is written |
| Session.StaleRefreshTokenRejected | src/controllers/user.controller.js:221-223 | Once a refresh has replaced a token, presenting the old one again is refused (401 intended, 500 as written) and writes nothing |
| Session.LoginThenRefreshRotates | src/controllers/user.controller.js:152-154 | With the intended refresh, the token issued at login can be exchanged once for the next one and is dead afterwards |
| Session.AsWrittenRefreshLocksClientOut | src/controllers/user.controller.js:229-238 | As written, a successful refresh stores a new token but gives it to nobody; the old token and the cookie value "undefined" are both refused from then on |
| Session.PasswordChangeKeepsSessions | src/controllers/user.controller.js:250-267 | A password change leaves exactly the same refresh tokens current |
| Session.OwnCredentialsFindUser | src/controllers/user.controller.js:139-141 | In a well-formed collection a user's own username and email find that user |
| Session.PasswordChangeThenLogin | src/controllers/user.controller.js:255-263 | After a password change (with a hash that the password check accepts), the new password logs the same user in |
| Accounts.AnyFieldBlank | src/controllers/user.controller.js:38-40 | True exactly when one of the four fields is present and made of white space only |
| Accounts.NewUser | src/controllers/user.controller.js:85-92 | `create` succeeds exactly when both uploads gave a non-empty URL, the four fields are present, none of the three set through `trim` is white space only and the password is non-empty (validation sees the plaintext); the document stores the username and email canonical, the full name trimmed, the two URLs, the hashed password, no refresh token and an empty history |
| Accounts.Cleanup | src/controllers/user.controller.js:110-116 | The `catch` deletes exactly the images that were uploaded |
| Accounts.CreateUser | src/controllers/user.controller.js:84-122 | Succeeds exactly when the document can be built, the id is fresh and neither unique index is violated; success stores it and answers 201 with it sanitised; failure writes nothing, deletes the uploaded images and answers 500 |
| Accounts.RegisterUser | src/controllers/user.controller.js:33-123 | In order: 400 "All fields are required!" when a present field is blank; 400 "User already exist!" when a user matches; 400 "Avatar is missing!" without an avatar path; 500 when the avatar upload throws; 400 "Avatar is missing!" without a cover path; 500 when the cover upload throws. Succeeds exactly when all checks pass, the document can be built and the id is fresh; then the created document is stored and answered 201 sanitised. Failure writes nothing; only uploaded images are ever deleted |
| Accounts.UpdateAccountDetails | src/controllers/user.controller.js:275-308 | 401 for a missing full name, username or email, in that order; 404 for a missing user; once these pass, succeeds exactly when the updated document breaks no unique index; failure writes nothing; success answers 200 and rewrites exactly the three fields through the setters and nothing else |
| Accounts.SetDetails | src/controllers/user.controller.js:287-301 | The `$set` after the checks: 404 for a missing user; succeeds exactly when the user exists and the new values break no unique index; then answers 200 and rewrites exactly the three fields and nothing else |
| Accounts.UpdateAloneSucceeds | src/controllers/user.controller.js:275-308 | With truthy fields, updating the only user of a collection succeeds and stores the values through the setters |
| Accounts.RegisterStoresNormalisedUser | src/controllers/user.controller.js:84-106 | A registered user is stored with a lower-cased canonical username, a canonical email, the hashed password and no refresh token; every required field is set, the password counted before hashing (and after it too when the hash is non-empty); the reply is that document sanitised |
| Accounts.DuplicateCheckCoversUniqueIndexes | src/controllers/user.controller.js:44-51 | Once the duplicate check has found nobody, the created document violates neither unique index |
| Accounts.RegisterPreservesWellFormed | src/controllers/user.controller.js:33-123 | Registration keeps the collection well formed |
| Accounts.RegisterRejectsTakenIdentity | src/controllers/user.controller.js:44-51 | Registering a taken username or email (after the setters) is refused with 400 and writes and deletes nothing |
| Accounts.AbsentFieldPassesBlankCheck | src/controllers/user.controller.js:38-42 | An absent full name passes the blank check; registration then fails, but not with the check's 400 |
| Accounts.MissingCoverKeepsAvatarUpload | src/controllers/user.controller.js:57-72 | A missing cover image is answered "Avatar is missing!", and the already uploaded avatar is not deleted |
| Accounts.UpdatePreservesWellFormed | src/controllers/user.controller.js:287-297 | The account-details update keeps the collection well formed |
| Accounts.UpdateCanStoreEmptyFullname | src/controllers/user.controller.js:277-297 | A non-empty full name that `trim` empties passes the check and is stored as "", leaving the document without a required field |
| SocialGraph.Lookup | src/controllers/user.controller.js:385-390 | A `$lookup` into subscriptions returns exactly the edges whose joined field is the document's id |
| SocialGraph.LookupSizeCountsEdges | src/controllers/user.controller.js:405-407 | The size of a lookup is the number of matching subscriptions, duplicates included |
| SocialGraph.SubscriberIds | src/controllers/user.controller.js:413 | `"$subscribers.subscriber"` lists, position by position, the subscriber of every looked-up subscription |
| SocialGraph.IsSubscribedTo | src/controllers/user.controller.js:411-417 | True exactly when a viewer is given and a subscription from the viewer to the channel exists |
| SocialGraph.FindByUsername | src/controllers/user.controller.js:377-382 | The `$match` finds a document whose stored username is exactly the lower-cased request, or nothing when there is none |
| SocialGraph.GetUserChannelProfile | src/controllers/user.controller.js:370-440 | As written: 400 for a blank username; otherwise a database error with no status, except that 404 is answered when no channel matches and the database does not fold the constant `$size` ahead of the documents |
| SocialGraph.SubscribedToAsWritten | src/controllers/user.controller.js:394-399 | As written, the `subscribedTo` lookup returns the edges whose `channel` is the user, the same as the subscribers lookup |
| SocialGraph.SubscribedTo | src/controllers/user.controller.js:393-399 | As intended, the edges whose `subscriber` is the user |
| SocialGraph.GetUserChannelProfileFixed | src/controllers/user.controller.js:370-440 | As intended: the same 400 and 404; otherwise 200 with the matched channel's username, full name, avatar, cover image and email, its subscriber count, the count of channels it follows and whether the viewer follows it |
| SocialGraph.SubscribedToAsWrittenCountsSubscribers | src/controllers/user.controller.js:394-409 | The as-written followed count equals the subscriber count; one subscription shows that the two counts differ |
| SocialGraph.ChannelProfileNeverSucceeds | src/controllers/user.controller.js:408-410 | As written the profile never succeeds, whether or not the database folds constants; once a channel matches, the error middleware answers 500 where the intended version answers 200; for a blank name, and for an unmatched name when nothing is folded, the two agree |
| SocialGraph.ProjectOwnerAsWritten | src/controllers/user.controller.js:464-468 | As written, the owner view keeps id, username and avatar but no full name |
| SocialGraph.ProjectOwner | src/controllers/user.controller.js:464-468 | As intended, the owner view also keeps the full name |
| SocialGraph.OwnerLookup | src/controllers/user.controller.js:457-471 | The owner lookup finds at most one user, exactly when the owner exists |
| SocialGraph.First | src/controllers/user.controller.js:474-478 | `$first` is the first element, or nothing for an empty array |
| SocialGraph.Enrich | src/controllers/user.controller.js:456-479 | A video keeps its id; its owner is the projected owner when one exists, and nothing otherwise |
| SocialGraph.JoinHistory | src/controllers/user.controller.js:450-482 | Exactly the videos in the history, each enriched, with no order claimed |
| SocialGraph.GetWatchHistory | src/controllers/user.controller.js:442-494 | Succeeds exactly when the user exists, with exactly the watched videos; no owner carries a full name; a missing user is a runtime error with no status |
| SocialGraph.GetWatchHistoryFixed | src/controllers/user.controller.js:442-494 | As intended: the same videos, with owners projected with their full name |
| SocialGraph.WatchHistoryIgnoresHistoryOrder | src/controllers/user.controller.js:450-454 | The result depends on which videos are in the history, not on their order or repetitions |
| SocialGraph.WatchHistoryOwnerFullname | src/controllers/user.controller.js:464-468 | A watched video whose owner (any existing user) exists appears with that owner's full name as intended, and without it as written |

## Left out

- Hashing, JWT signing and verification, and the pre-save hook are not modelled; they are the parameters `Crypto.hash`, `Crypto.passwordMatches`, `Crypto.verifyRefresh` and `minted`. The user model's methods and hook are not part of this model.
- The image upload and delete calls are left out. An upload is its outcome (`Upload`). Deletions are returned as the list of deleted public ids, not performed.
- `src/utils/apiError.js`, `apiResponse.js`, the `verifyJWT` middleware and the routes are not part of this model. `apiError` is taken to keep the status, message, error list and stack it is given. The authenticated user arrives as an id parameter.
- The refresh handler reads `req.cookies.refreshToken`, but `src/app.js` installs no cookie parser, so as the application is wired that read would throw. The model assumes the cookies are parsed and takes the cookie as the parameter `cookie`.
- Errors.ErrorHandler: the reply status is taken to be whatever status the error carries. A foreign error whose truthy `statusCode` lies outside 100–999 makes `res.status(...)` or the response write refuse it, so the JSON reply is never sent and the framework's default handler answers 500 instead; the model answers that status with the JSON body.
- Errors.ErrorHandler: an `apiError` thrown by a controller carries the stack trace captured when it is built; the model gives it the empty stack, so in development the model's reply shows "" where the server shows that trace.
- Logging, timestamps (`createdAt`, `updatedAt`), the JSON success envelope (`apiResponse`) and the transport of cookies over HTTP are left out.
- Concurrency between requests is left out. Each handler is one atomic transition, so races between the duplicate check and `create` are not modelled.
- `toLowerCase` is modelled for ASCII letters only; Unicode case mapping is left out.
- Which of several matching documents `findOne` or `$match` returns is not specified by the database. The model picks the least id.
- `Session.LogOutUser`: `$set: { refreshToken: undefined }` is taken to remove the field. Some ODM versions ignore an undefined value instead.
- `UserModel.MatchesUsernameOrEmail`: an absent query value (`{ username: undefined }` inside the `$or`) is taken to select nothing. This is a modelling choice: depending on the ODM's settings the key may instead be dropped from the filter, which would select every document, or sent as `null`, which would select documents without the field.
- `Session.ChangeCurrentPassword`: an absent `oldPassword` or `newPassword` is not modelled. The two are plain strings here.
- `Accounts.RegisterUser`: the success contract names the created document through `Accounts.NewUser` rather than restating its fields. `Accounts.RegisterStoresNormalisedUser` states them.
- `Accounts.RegisterUser`: a duplicate-key failure of `create` is modelled as the collision check in `Accounts.CreateUser`. The database's other failures are not modelled.
- `SocialGraph.JoinHistory`: the order of the looked-up videos is not claimed, since the database promises none. The contract speaks only of membership.
- `SocialGraph.GetUserChannelProfile`: whether the database evaluates the constant `$size` before any document reaches it is not known here. The parameter `foldsConstants` chooses, and the 404 for an unmatched name is promised only when it is false.
- `Accounts.RegisterStoresNormalisedUser`: the stored document has every required field only when the hash of the password is non-empty, since the hash is a parameter and `required` is checked on the plaintext before hashing.
- `getCurrentUser`, `updateUserAvatar` and `updateUserCoverImage` are outside the modelled core.
- Videos, comments and the other collections are reduced to what the two aggregations read: a video's id and owner, and a subscription's two ends.

## Findings

| source | as written | input that shows it | evidently intended | confidence | as-written member | corrected member |
|---|---|---|---|---|---|---|
| src/controllers/user.controller.js:209-247 | The `catch` rethrows every error from the `try`, including the handler's own 401 "Invalid refresh token", as a 500 | a token that verifies but is no longer the user's current one | 401 for an unknown, invalid or stale token; 500 only when rotation fails | not executed | Session.StaleRefreshTokenRejected | Session.RefreshAccessTokenFixed |
| src/controllers/user.controller.js:229-238 | Destructures `newRefreshToken` from a result that only has `refreshToken`, so the body carries no refresh token and the cookie is set to "undefined" | any successful refresh | Hand back the rotated refresh token in the body and the cookie | not executed | Session.AsWrittenRefreshLocksClientOut | Session.LoginThenRefreshRotates |
| src/controllers/user.controller.js:394-399 | The `subscribedTo` lookup joins on `channel`, repeating the subscribers lookup | one subscription from user 1 to user 2, asking for user 1's followed count | Join on `subscriber` | not executed | SocialGraph.SubscribedToAsWrittenCountsSubscribers | SocialGraph.SubscribedTo |
| src/controllers/user.controller.js:408-410 | `$size` is given the literal string "subscribedTo", which is not an array, so the aggregation fails | any existing channel's username (any non-blank name when the database folds constants) | `$size: "$subscribedTo"` | not executed | SocialGraph.ChannelProfileNeverSucceeds | SocialGraph.GetUserChannelProfileFixed |
| src/controllers/user.controller.js:464-468 | The owner projection names `fullName`, but the schema's field is `fullname`, so the full name is dropped | any watched video whose owner exists | Project `fullname` | not executed | SocialGraph.WatchHistoryOwnerFullname | SocialGraph.GetWatchHistoryFixed |

=== FILE: accounts.dfy ===
/** The account half of `src/controllers/user.controller.js`: registering a
    user and updating the account details. */
module Accounts {
  import opened JsValues
  import opened UserModel
  import opened Errors
  import opened Session

  /** The multipart form `registerUser` reads: four body fields and the
      local paths of the two uploaded files. */
  datatype RegisterRequest = RegisterRequest(
    fullname: Field,
    email: Field,
    username: Field,
    password: Field,
    avatarPath: Field,
    coverPath: Field)

  /** What `uploadOnCloudinary` did with one local file: uploaded it,
      returned `null` (its own failures end there), or threw. */
  datatype Upload = Uploaded(url: string, publicId: string) | UploadNull | UploadThrew

  /** The effect of `registerUser`: the reply, the collection after it, and
      the public ids of the images deleted while cleaning up. */
  datatype Registration = Registration(result: Result<PublicUser>, store: Store, deleted: seq<string>)

  /** `[fullname, email, username, password].some(f => f?.trim() === "")`. */
  predicate AnyFieldBlank(req: RegisterRequest)
    ensures AnyFieldBlank(req) <==>
      exists f :: f in [req.fullname, req.email, req.username, req.password] && f.Some? && AllWhitespace(f.value)
  {
    assert forall f :: (f in [req.fullname, req.email, req.username, req.password]
      <==> f == req.fullname || f == req.email || f == req.username || f == req.password);
    IsBlankPresent(req.fullname) || IsBlankPresent(req.email)
    || IsBlankPresent(req.username) || IsBlankPresent(req.password)
  }

  /** The document `User.create` stores: `username.toLowerCase()` and the
      other fields through the schema's setters, the password through the
      pre-save hook. `None` when building it throws (a `null` upload or an
      absent username) or a `required` validator rejects it. Validation runs
      before the pre-save hook, so `required` sees the plaintext password. */
  function NewUser(req: RegisterRequest, crypto: Crypto, avatar: Upload, cover: Upload): (r: Option<User>)
    ensures r.Some? <==>
      && avatar.Uploaded? && cover.Uploaded? && avatar.url != "" && cover.url != ""
      && req.username.Some? && req.email.Some? && req.fullname.Some? && req.password.Some?
      && !AllWhitespace(req.username.value) && !AllWhitespace(req.email.value)
      && !AllWhitespace(req.fullname.value) && req.password.value != ""
    ensures r.Some? ==>
      && r.value.username == Canonical(req.username.value)
      && r.value.email == Canonical(req.email.value)
      && r.value.fullname == Trim(req.fullname.value)
      && r.value.avatar == avatar.url
      && r.value.coverImage == cover.url
      && r.value.password == crypto.hash(req.password.value)
      && r.value.refreshToken.None?
      && r.value.watchHistory == []
    ensures r.Some? ==> WellFormedUser(r.value) && HasRequiredFields(r.value.(password := req.password.value))
  {
    if !avatar.Uploaded? || !cover.Uploaded? || req.username.None? then None
    else if req.fullname.None? || req.email.None? || req.password.None? then None
    else
      var name := Canonical(Lower(req.username.value));
      CanonicalAbsorbsLower(req.username.value);
      var mail := Canonical(req.email.value);
      var full := Trim(req.fullname.value);
      assert IsCanonical(name) && IsCanonical(mail) && IsTrimmed(full);
      var draft := User(name, mail, full, avatar.url, cover.url, [], req.password.value, None);
      if !HasRequiredFields(draft) then None
      else Some(draft.(password := crypto.hash(req.password.value)))
  }

  /** The cleanup of the `catch` around `User.create`: every image that was
      uploaded is deleted. */
  function Cleanup(avatar: Upload, cover: Upload): (ids: seq<string>)
    ensures forall id :: id in ids <==>
      (avatar.Uploaded? && id == avatar.publicId) || (cover.Uploaded? && id == cover.publicId)
  {
    (if avatar.Uploaded? then [avatar.publicId] else [])
    + (if cover.Uploaded? then [cover.publicId] else [])
  }

  const RegisterFailed: string := "Something went wrong while registering a user and images were deleted"

  /** The `try` block of `registerUser` and its `catch`: create the
      document, or delete the uploaded images and answer 500. */
  function CreateUser(store: Store, crypto: Crypto, req: RegisterRequest, avatar: Upload, cover: Upload, freshId: Id): (r: Registration)
    ensures r.result.Err? ==> r.store == store && r.result == Raise(500, RegisterFailed)
    ensures r.result.Ok? <==>
      && NewUser(req, crypto, avatar, cover).Some?
      && freshId !in store
      && !Collides(store, freshId, NewUser(req, crypto, avatar, cover).value)
    ensures r.result.Ok? ==>
      && NewUser(req, crypto, avatar, cover).Some?
      && freshId !in store
      && r.store == store[freshId := NewUser(req, crypto, avatar, cover).value]
      && r.result == Ok(201, Sanitise(freshId, r.store[freshId]))
      && r.deleted == []
    ensures r.result.Err? ==> r.deleted == Cleanup(avatar, cover)
  {
    match NewUser(req, crypto, avatar, cover)
    case None => Registration(Raise(500, RegisterFailed), store, Cleanup(avatar, cover))
    case Some(u) =>
      if freshId in store || Collides(store, freshId, u) then
        Registration(Raise(500, RegisterFailed), store, Cleanup(avatar, cover))
      else
        Registration(Ok(201, Sanitise(freshId, u)), store[freshId := u], [])
  }

  /** `registerUser`. `avatar` and `cover` are what the upload of each file
      gave; `freshId` is the id the database assigns. */
  function RegisterUser(store: Store, crypto: Crypto, req: RegisterRequest, avatar: Upload, cover: Upload, freshId: Id): (r: Registration)
    ensures AnyFieldBlank(req) ==> r.result == Raise(400, "All fields are required!")
    ensures !AnyFieldBlank(req) && FindOne(store, req.username, req.email).Some?
      ==> r.result == Raise(400, "User already exist!")
    ensures !AnyFieldBlank(req) && FindOne(store, req.username, req.email).None? ==>
      && (!Truthy(req.avatarPath) ==> r.result == Raise(400, "Avatar is missing!"))
      && (Truthy(req.avatarPath) && avatar.UploadThrew?
          ==> r.result == Raise(500, "Failed to upload avatar"))
      && (Truthy(req.avatarPath) && !avatar.UploadThrew? && !Truthy(req.coverPath)
          ==> r.result == Raise(400, "Avatar is missing!"))
      && (Truthy(req.avatarPath) && !avatar.UploadThrew? && Truthy(req.coverPath) && cover.UploadThrew?
          ==> r.result == Raise(500, "Failed to upload cover image"))
    ensures r.result.Ok? <==>
      && !AnyFieldBlank(req)
      && FindOne(store, req.username, req.email).None?
      && Truthy(req.avatarPath) && Truthy(req.coverPath)
      && NewUser(req, crypto, avatar, cover).Some?
      && freshId !in store
    ensures r.result.Err? ==> r.store == store
    ensures r.result.Ok? ==>
      && !AnyFieldBlank(req)
      && FindOne(store, req.username, req.email).None?
      && freshId !in store
      && NewUser(req, crypto, avatar, cover).Some?
      && r.store == store[freshId := NewUser(req, crypto, avatar, cover).value]
      && r.result == Ok(201, Sanitise(freshId, NewUser(req, crypto, avatar, cover).value))
    ensures r.result.Ok? ==> r.deleted == []
    ensures forall id :: id in r.deleted ==>
      (avatar.Uploaded? && id == avatar.publicId) || (cover.Uploaded? && id == cover.publicId)
  {
    if AnyFieldBlank(req) then Registration(Raise(400, "All fields are required!"), store, [])
    else if FindOne(store, req.username, req.email).Some? then
      Registration(Raise(400, "User already exist!"), store, [])
    else if !Truthy(req.avatarPath) then Registration(Raise(400, "Avatar is missing!"), store, [])
    else if avatar.UploadThrew? then Registration(Raise(500, "Failed to upload avatar"), store, [])
    else if !Truthy(req.coverPath) then Registration(Raise(400, "Avatar is missing!"), store, [])
    else if cover.UploadThrew? then Registration(Raise(500, "Failed to upload cover image"), store, [])
    else
      DuplicateCheckCoversUniqueIndexes(store, crypto, req, avatar, cover, freshId);
      CreateUser(store, crypto, req, avatar, cover, freshId)
  }

  /** The `$set` of `updateAccountDetails` once its checks have passed and
      the setters have produced `name`, `full` and `mail`: a missing user is
      404, a clash with a unique index is the database's duplicate-key error. */
  function SetDetails(store: Store, id: Id, name: string, full: string, mail: string): (r: Step<()>)
    ensures id !in store ==> r.result == Raise(404, "User not found")
    ensures r.result.Ok? <==>
      id in store && !Collides(store, id, store[id].(username := name, email := mail, fullname := full))
    ensures r.result.Err? ==> r.store == store
    ensures r.result.Ok? ==> r.result.status == 200
    ensures r.result.Ok? ==>
      && r.store.Keys == store.Keys
      && (forall other :: other in store && other != id ==> r.store[other] == store[other])
      && r.store[id] == store[id].(username := name, email := mail, fullname := full)
  {
    if id !in store then Step(Raise(404, "User not found"), store)
    else
      var u := store[id].(username := name, email := mail, fullname := full);
      if Collides(store, id, u) then Step(RuntimeFailure("E11000 duplicate key error"), store)
      else Step(Ok(200, ()), store[id := u])
  }

  /** `updateAccountDetails` for the authenticated user `id`. The update goes
      through the schema's setters but not its validators; a clash with a
      unique index is the database's duplicate-key error. */
  function UpdateAccountDetails(store: Store, id: Id, username: Field, fullname: Field, email: Field): (r: Step<()>)
    ensures !Truthy(fullname) ==> r.result == Raise(401, "Fullname is required ")
    ensures Truthy(fullname) && !Truthy(username) ==> r.result == Raise(401, "Username is required ")
    ensures Truthy(fullname) && Truthy(username) && !Truthy(email) ==> r.result == Raise(401, "Email is required ")
    ensures Truthy(fullname) && Truthy(username) && Truthy(email) && id !in store
      ==> r.result == Raise(404, "User not found")
    ensures Truthy(fullname) && Truthy(username) && Truthy(email) && id in store ==>
      (r.result.Ok? <==> !Collides(store, id, store[id].(
           username := Canonical(username.value),
           email := Canonical(email.value),
           fullname := Trim(fullname.value))))
    ensures r.result.Err? ==> r.store == store
    ensures r.result.Ok? ==> r.result.status == 200
    ensures r.result.Ok? ==>
      && Truthy(fullname) && Truthy(username) && Truthy(email)
      && id in store
      && r.store.Keys == store.Keys
      && (forall other :: other in store && other != id ==> r.store[other] == store[other])
      && r.store[id] == store[id].(
           username := Canonical(username.value),
           email := Canonical(email.value),
           fullname := Trim(fullname.value))
  {
    if !Truthy(fullname) then Step(Raise(401, "Fullname is required "), store)
    else if !Truthy(username) then Step(Raise(401, "Username is required "), store)
    else if !Truthy(email) then Step(Raise(401, "Email is required "), store)
    else
      var name, full, mail := Canonical(username.value), Trim(fullname.value), Canonical(email.value);
      SetDetails(store, id, name, full, mail)
  }

  /** A registered user is stored normalised (the username lower-cased),
      with the submitted password through the hook and no refresh token, and
      the reply is that document without its password and refresh token. */
  lemma RegisterStoresNormalisedUser(store: Store, crypto: Crypto, req: RegisterRequest, avatar: Upload, cover: Upload, freshId: Id)
    requires RegisterUser(store, crypto, req, avatar, cover, freshId).result.Ok?
    ensures var r := RegisterUser(store, crypto, req, avatar, cover, freshId);
      && freshId in r.store && freshId !in store
      && r.store[freshId].username == Canonical(req.username.value)
      && IsLowerCase(r.store[freshId].username)
      && r.store[freshId].email == Canonical(req.email.value)
      && r.store[freshId].password == crypto.hash(req.password.value)
      && r.store[freshId].refreshToken.None?
      && HasRequiredFields(r.store[freshId].(password := req.password.value))
      && (crypto.hash(req.password.value) != "" ==> HasRequiredFields(r.store[freshId]))
      && r.result.value == Sanitise(freshId, r.store[freshId])
  {
    var r := RegisterUser(store, crypto, req, avatar, cover, freshId);
    var u := NewUser(req, crypto, avatar, cover).value;
    assert r.store == store[freshId := u];
    assert r.store[freshId] == u;
  }

  /** The duplicate check and the unique indexes agree: once `findOne` has
      found nobody, the document `User.create` builds clashes with nobody. */
  lemma DuplicateCheckCoversUniqueIndexes(store: Store, crypto: Crypto, req: RegisterRequest, avatar: Upload, cover: Upload, freshId: Id)
    requires FindOne(store, req.username, req.email).None?
    ensures NewUser(req, crypto, avatar, cover).Some? ==>
      !Collides(store, freshId, NewUser(req, crypto, avatar, cover).value)
  {
  }

  /** Registration keeps the collection well formed. */
  lemma RegisterPreservesWellFormed(store: Store, crypto: Crypto, req: RegisterRequest, avatar: Upload, cover: Upload, freshId: Id)
    requires WellFormed(store)
    ensures WellFormed(RegisterUser(store, crypto, req, avatar, cover, freshId).store)
  {
    var r := RegisterUser(store, crypto, req, avatar, cover, freshId);
    if r.result.Ok? {
      var u := NewUser(req, crypto, avatar, cover).value;
      DuplicateCheckCoversUniqueIndexes(store, crypto, req, avatar, cover, freshId);
      PutPreservesWellFormed(store, freshId, u);
    }
  }

  /** Registering a username or an email that a stored user already has
      (after the schema's setters) is refused with 400, and nothing is
      written or deleted. */
  lemma RegisterRejectsTakenIdentity(store: Store, crypto: Crypto, req: RegisterRequest, avatar: Upload, cover: Upload, freshId: Id, taken: Id)
    requires !AnyFieldBlank(req)
    requires taken in store
    requires (req.username.Some? && store[taken].username == Canonical(req.username.value))
          || (req.email.Some? && store[taken].email == Canonical(req.email.value))
    ensures RegisterUser(store, crypto, req, avatar, cover, freshId)
      == Registration(Raise(400, "User already exist!"), store, [])
  {
    assert MatchesUsernameOrEmail(store[taken], req.username, req.email);
  }

  /** The blank check only looks at present fields: an absent full name gets
      past it, and registration then fails in `User.create` with 500 rather
      than with the check's 400. */
  lemma AbsentFieldPassesBlankCheck(store: Store, crypto: Crypto, req: RegisterRequest, avatar: Upload, cover: Upload, freshId: Id)
    requires req.fullname.None?
    requires !IsBlankPresent(req.email) && !IsBlankPresent(req.username) && !IsBlankPresent(req.password)
    ensures var r := RegisterUser(store, crypto, req, avatar, cover, freshId);
      && r.result != Raise(400, "All fields are required!")
      && r.result.Err?
  {
  }

  /** The account update keeps the collection well formed. */
  lemma UpdatePreservesWellFormed(store: Store, id: Id, username: Field, fullname: Field, email: Field)
    requires WellFormed(store)
    ensures WellFormed(UpdateAccountDetails(store, id, username, fullname, email).store)
  {
    var r := UpdateAccountDetails(store, id, username, fullname, email);
    if r.result.Ok? {
      var u := r.store[id];
      CanonicalFixesExactlyCanonical(username.value);
      assert WellFormedUser(u);
      assert !Collides(store, id, u);
      PutPreservesWellFormed(store, id, u);
    }
  }

  /** A collection of one document has nothing for that document to clash
      with. */
  lemma AloneNeverCollides(u: User, id: Id, v: User)
    ensures !Collides(map[id := u], id, v)
  {
    assert map[id := u].Keys == {id};
  }

  /** Updating the only document of a collection always succeeds. */
  lemma UpdateAloneSucceeds(u: User, id: Id, username: string, fullname: string, email: string)
    requires username != "" && fullname != "" && email != ""
    ensures var r := UpdateAccountDetails(map[id := u], id, Some(username), Some(fullname), Some(email));
      && r.result.Ok?
      && r.store[id] == u.(username := Canonical(username), email := Canonical(email), fullname := Trim(fullname))
  {
    var name, full, mail := Canonical(username), Trim(fullname), Canonical(email);
    AloneNeverCollides(u, id, u.(username := name, email := mail, fullname := full));
  }

  /** The update does not run the schema's validators: a full name made of
      whitespace only (which `trim` empties) is truthy, passes the check, and
      is stored as "". */
  lemma UpdateCanStoreEmptyFullname(u: User, id: Id, username: string, email: string, blank: string)
    requires username != "" && email != ""
    requires blank != "" && Trim(blank) == ""
    ensures var r := UpdateAccountDetails(map[id := u], id, Some(username), Some(blank), Some(email));
      && r.result.Ok?
      && r.store[id].fullname == ""
      && !HasRequiredFields(r.store[id])
  {
    UpdateAloneSucceeds(u, id, username, blank, email);
  }

  /** A missing cover image is answered with the avatar's message, after the
      avatar has been uploaded, and that upload is never deleted. */
  lemma MissingCoverKeepsAvatarUpload(store: Store, crypto: Crypto, req: RegisterRequest, url: string, publicId: string, cover: Upload, freshId: Id)
    requires !AnyFieldBlank(req) && FindOne(store, req.username, req.email).None?
    requires Truthy(req.avatarPath) && !Truthy(req.coverPath)
    ensures var r := RegisterUser(store, crypto, req, Uploaded(url, publicId), cover, freshId);
      && r.result == Raise(400, "Avatar is missing!")
      && publicId !in r.deleted
      && r.store == store
  {
    var r := RegisterUser(store, crypto, req, Uploaded(url, publicId), cover, freshId);
    assert r == Registration(Raise(400, "Avatar is missing!"), store, []);
  }
}

=== FILE: errors.dfy ===
/** Errors as the controller throws them, and the central error-handling
    middleware of `src/middlewares/error.middlewares.js` that turns any of
    them into a JSON reply. */
module Errors {
  import opened JsValues

  /** An `apiError`. `src/utils/apiError.js` is not part of this model; the
      class is taken to keep the status, message, error list and stack it is
      constructed with. */
  datatype ApiError = ApiError(statusCode: int, message: string, errors: seq<string>, stack: string)

  /** Any other thrown value: a mongoose error, a database driver error, a
      `TypeError`, a token-library error. Each property may be missing. */
  datatype ForeignError = ForeignError(
    statusCode: Option<int>,
    isMongooseError: bool,
    message: Field,
    errors: Option<seq<string>>,
    stack: string)

  datatype Thrown = Api(api: ApiError) | Foreign(foreign: ForeignError)

  /** What a controller produces: a success status with its payload, or a
      thrown error that the middleware will answer. */
  datatype Result<+T> = Ok(status: int, value: T) | Err(error: Thrown)

  /** `throw new apiError(code, message)`. The stack trace the runtime
      captures at construction is not modelled. */
  function Raise<T>(code: int, message: string): Result<T> {
    Err(Api(ApiError(code, message, [], "")))
  }

  /** A failure the runtime or the database raises itself: it carries no
      status code and is not a mongoose error. */
  function RuntimeFailure<T>(message: string): Result<T> {
    Err(Foreign(ForeignError(None, false, Some(message), None, "")))
  }

  /** The status an error carries, with 0 standing for none. */
  function StatusOf(t: Thrown): int {
    match t
    case Api(e) => e.statusCode
    case Foreign(f) => f.statusCode.GetOr(0)
  }

  const DefaultMessage: string := "Something went wrong"

  /** The JSON body the middleware sends. */
  datatype ErrorBody = ErrorBody(success: bool, statusCode: int, message: string, stack: Option<string>)

  /** The HTTP status and the body of an error reply. */
  datatype ErrorReply = ErrorReply(status: int, body: ErrorBody)

  /** `error.statusCode` is truthy. */
  predicate HasOwnStatus(f: ForeignError) {
    f.statusCode.Some? && f.statusCode.value != 0
  }

  /** Wrapping a foreign error into an `apiError`: its own truthy status,
      otherwise 400 for a mongoose error and 500 for anything else; its own
      non-empty message, otherwise the generic one; its error list, or none. */
  function Wrap(f: ForeignError): (e: ApiError)
    ensures HasOwnStatus(f) ==> e.statusCode == f.statusCode.value
    ensures !HasOwnStatus(f) && f.isMongooseError ==> e.statusCode == 400
    ensures !HasOwnStatus(f) && !f.isMongooseError ==> e.statusCode == 500
    ensures e.statusCode != 0
    ensures Truthy(f.message) ==> e.message == f.message.value
    ensures !Truthy(f.message) ==> e.message == DefaultMessage
    ensures e.message != ""
    ensures f.errors.Some? ==> e.errors == f.errors.value
    ensures f.errors.None? ==> e.errors == []
    ensures e.stack == f.stack
  {
    var statusCode :=
      if HasOwnStatus(f) then f.statusCode.value
      else if f.isMongooseError then 400
      else 500;
    var message := if Truthy(f.message) then f.message.value else DefaultMessage;
    ApiError(statusCode, message, f.errors.GetOr([]), f.stack)
  }

  /** The `apiError` the middleware answers with: an `apiError` as it is,
      anything else wrapped. */
  function Normalise(t: Thrown): (e: ApiError)
    ensures t.Api? ==> e == t.api
    ensures t.Foreign? ==> e == Wrap(t.foreign)
  {
    match t
    case Api(e) => e
    case Foreign(f) => Wrap(f)
  }

  /** `errorHandler(err, req, res, next)` with `NODE_ENV` as `env`. */
  function ErrorHandler(t: Thrown, env: string): (r: ErrorReply)
    ensures r.status == r.body.statusCode
    ensures !r.body.success
    ensures r.body.statusCode != 0
    ensures StatusOf(t) != 0 ==> r.status == StatusOf(t)
    ensures t.Api? && t.api.statusCode == 0 ==> r.status == 500
    ensures t.Api? ==> r.body.message == t.api.message
    ensures r.body.message == Normalise(t).message
    ensures r.body.stack.Some? <==> env == "development"
    ensures env == "development" ==> r.body.stack == Some(Normalise(t).stack)
  {
    var e := Normalise(t);
    var body := ErrorBody(
      false,
      if e.statusCode != 0 then e.statusCode else 500,
      e.message,
      if env == "development" then Some(e.stack) else None);
    ErrorReply(body.statusCode, body)
  }

  /** Normalising is idempotent: answering a foreign error is the same as
      answering the `apiError` it is wrapped into. */
  lemma HandlingWrappedIsHandlingForeign(f: ForeignError, env: string)
    ensures ErrorHandler(Api(Wrap(f)), env) == ErrorHandler(Foreign(f), env)
    ensures Normalise(Api(Normalise(Foreign(f)))) == Normalise(Foreign(f))
  {
  }

  /** Every reply status is the error's own status, 400 for a mongoose error
      without one, or 500. */
  lemma ReplyStatusChoices(t: Thrown, env: string)
    ensures var s := ErrorHandler(t, env).status;
      || (StatusOf(t) != 0 && s == StatusOf(t))
      || (StatusOf(t) == 0 && t.Foreign? && t.foreign.isMongooseError && s == 400)
      || (StatusOf(t) == 0 && s == 500)
  {
  }

  /** The same error with another stack trace. */
  function WithStack(t: Thrown, stack: string): Thrown {
    match t
    case Api(e) => Api(e.(stack := stack))
    case Foreign(f) => Foreign(f.(stack := stack))
  }

  /** Outside development the stack trace cannot influence the reply: two
      errors that differ only in their stack are answered identically, and
      in development they are answered differently. */
  lemma StackVisibleOnlyInDevelopment(t: Thrown, s1: string, s2: string, env: string)
    requires s1 != s2
    ensures ErrorHandler(WithStack(t, s1), env) == ErrorHandler(WithStack(t, s2), env)
        <==> env != "development"
  {
    if env == "development" {
      assert ErrorHandler(WithStack(t, s1), env).body.stack == Some(s1);
    }
  }
}

=== FILE: js_values.dfy ===
/** JavaScript value semantics the controller leans on: `undefined` request
    fields, truthiness of strings, `String.prototype.trim` and
    `String.prototype.toLowerCase`. */
module JsValues {

  /** `None` is JavaScript's `undefined` (or `null`); `Some` carries a value. */
  datatype Option<+T> = None | Some(value: T) {
    function GetOr(default: T): T {
      match this
      case Some(v) => v
      case None => default
    }
  }

  /** A request field as Express hands it over: absent, or a string. */
  type Field = Option<string>

  /** A field is truthy when it is present and not the empty string. */
  predicate Truthy(f: Field) {
    f.Some? && f.value != ""
  }

  /** The characters `trim` removes: ECMAScript's WhiteSpace and
      LineTerminator productions (section 12.2 and 12.3 of ECMA-262). */
  predicate IsWhitespace(c: char) {
    || c == '\t' || c == '\n' || c == '\r'
    || c == '\U{000B}' || c == '\U{000C}' || c == ' '
    || c == '\U{00A0}' || c == '\U{1680}'
    || ('\U{2000}' <= c <= '\U{200A}')
    || c == '\U{2028}' || c == '\U{2029}'
    || c == '\U{202F}' || c == '\U{205F}' || c == '\U{3000}'
    || c == '\U{FEFF}'
  }

  predicate AllWhitespace(s: string) {
    forall i :: 0 <= i < |s| ==> IsWhitespace(s[i])
  }

  /** Neither end of `s` is whitespace. */
  predicate IsTrimmed(s: string) {
    s == "" || (!IsWhitespace(s[0]) && !IsWhitespace(s[|s| - 1]))
  }

  /** `s` with its leading whitespace removed. */
  function TrimStart(s: string): (r: string)
    ensures |r| <= |s| && r == s[|s| - |r|..]
    ensures r == "" || !IsWhitespace(r[0])
    ensures AllWhitespace(s[..|s| - |r|])
  {
    if |s| > 0 && IsWhitespace(s[0]) then
      var r := TrimStart(s[1..]);
      assert s[..|s| - |r|] == [s[0]] + s[1..][..|s| - 1 - |r|];
      r
    else s
  }

  /** `s` with its trailing whitespace removed. */
  function TrimEnd(s: string): (r: string)
    ensures |r| <= |s| && r == s[..|r|]
    ensures r == "" || !IsWhitespace(r[|r| - 1])
    ensures AllWhitespace(s[|r|..])
  {
    if |s| > 0 && IsWhitespace(s[|s| - 1]) then
      var r := TrimEnd(s[..|s| - 1]);
      assert s[|r|..] == s[..|s| - 1][|r|..] + [s[|s| - 1]];
      r
    else s
  }

  /** `r` is the infix of `s` starting at `i`, with nothing but whitespace
      before and after it. */
  predicate FramedByWhitespace(s: string, i: int, r: string) {
    && 0 <= i && i + |r| <= |s| && r == s[i..i + |r|]
    && AllWhitespace(s[..i]) && AllWhitespace(s[i + |r|..])
  }

  /** `String.prototype.trim`: the infix of `s` left once the leading and the
      trailing whitespace are cut off; it neither starts nor ends with
      whitespace. */
  function Trim(s: string): (r: string)
    ensures IsTrimmed(r)
    ensures exists i :: FramedByWhitespace(s, i, r)
    ensures r == "" <==> AllWhitespace(s)
    ensures forall c :: c in r ==> c in s
  {
    var t := TrimStart(s);
    var r := TrimEnd(t);
    CutBothEnds(s, t, r);
    r
  }

  /** Cutting the whitespace off the front of `s` (giving `t`) and then off
      the back of `t` (giving `r`) leaves a trimmed infix of `s` framed by
      whitespace. */
  lemma CutBothEnds(s: string, t: string, r: string)
    requires |t| <= |s| && t == s[|s| - |t|..] && AllWhitespace(s[..|s| - |t|])
    requires t == "" || !IsWhitespace(t[0])
    requires |r| <= |t| && r == t[..|r|] && AllWhitespace(t[|r|..])
    requires r == "" || !IsWhitespace(r[|r| - 1])
    ensures IsTrimmed(r)
    ensures FramedByWhitespace(s, |s| - |t|, r)
    ensures r == "" <==> AllWhitespace(s)
    ensures forall c :: c in r ==> c in s
  {
    var i := |s| - |t|;
    assert r == s[i..i + |r|];
    assert s[i + |r|..] == t[|r|..];
    assert r != "" ==> r[0] == t[0];
    WhitespaceFramedInfix(s, i, r);
  }

  /** An infix of `s` framed by whitespace on both sides and not starting
      with whitespace is empty exactly when `s` is all whitespace. */
  lemma WhitespaceFramedInfix(s: string, i: nat, r: string)
    requires i + |r| <= |s| && r == s[i..i + |r|]
    requires AllWhitespace(s[..i]) && AllWhitespace(s[i + |r|..])
    requires r == "" || !IsWhitespace(r[0])
    ensures r == "" <==> AllWhitespace(s)
    ensures forall c :: c in r ==> c in s
  {
    if r == "" {
      forall k | 0 <= k < |s| ensures IsWhitespace(s[k]) {
        if k < i {
          assert s[k] == s[..i][k];
        } else {
          assert s[k] == s[i..][k - i];
        }
      }
    } else {
      assert s[i] == r[0];
    }
    forall c | c in r ensures c in s {
      var k :| 0 <= k < |r| && r[k] == c;
      assert s[i + k] == c;
    }
  }

  /** `field?.trim() === ""`: present, and nothing but whitespace. An absent
      field is not blank in this sense. */
  predicate IsBlankPresent(f: Field) {
    f.Some? && Trim(f.value) == ""
  }

  /** `toLowerCase` on one character; only the ASCII letters are mapped. */
  function LowerChar(c: char): char {
    if 'A' <= c <= 'Z' then (c as int + 32) as char else c
  }

  predicate IsUpper(c: char) {
    'A' <= c <= 'Z'
  }

  predicate IsLowerCase(s: string) {
    forall i :: 0 <= i < |s| ==> !IsUpper(s[i])
  }

  /** `String.prototype.toLowerCase`, restricted to the ASCII letters. */
  function Lower(s: string): (r: string)
    ensures |r| == |s|
    ensures forall i :: 0 <= i < |s| ==> r[i] == LowerChar(s[i])
    ensures IsLowerCase(r)
  {
    seq(|s|, i requires 0 <= i < |s| => LowerChar(s[i]))
  }

  /** Lower-casing changes exactly the upper-case letters. */
  lemma LowerFixesExactlyLowerCase(s: string)
    ensures Lower(s) == s <==> IsLowerCase(s)
  {
    if Lower(s) == s {
      forall i | 0 <= i < |s| ensures !IsUpper(s[i]) {
        assert Lower(s)[i] == s[i];
      }
    }
  }

  lemma LowerIdempotent(s: string)
    ensures Lower(Lower(s)) == Lower(s)
  {
    LowerFixesExactlyLowerCase(Lower(s));
  }

  /** Lower-casing never turns whitespace into non-whitespace or back, so it
      commutes with trimming. */
  lemma {:induction false} LowerCommutesWithTrimStart(s: string)
    ensures TrimStart(Lower(s)) == Lower(TrimStart(s))
    decreases |s|
  {
    if |s| > 0 && IsWhitespace(s[0]) {
      assert Lower(s)[1..] == Lower(s[1..]);
      LowerCommutesWithTrimStart(s[1..]);
    }
  }

  lemma {:induction false} LowerCommutesWithTrimEnd(s: string)
    ensures TrimEnd(Lower(s)) == Lower(TrimEnd(s))
    decreases |s|
  {
    if |s| > 0 && IsWhitespace(s[|s| - 1]) {
      assert Lower(s)[..|s| - 1] == Lower(s[..|s| - 1]);
      LowerCommutesWithTrimEnd(s[..|s| - 1]);
    }
  }

  lemma LowerCommutesWithTrim(s: string)
    ensures Trim(Lower(s)) == Lower(Trim(s))
  {
    LowerCommutesWithTrimStart(s);
    LowerCommutesWithTrimEnd(TrimStart(s));
  }

  /** Trimming a string that is already trimmed changes nothing. */
  lemma TrimFixesExactlyTrimmed(s: string)
    ensures Trim(s) == s <==> IsTrimmed(s)
  {
  }

  lemma TrimIdempotent(s: string)
    ensures Trim(Trim(s)) == Trim(s)
  {
    TrimFixesExactlyTrimmed(Trim(s));
  }
}

=== FILE: session.dfy ===
/** The session half of `src/controllers/user.controller.js`: token rotation,
    login, logout, refresh and password change, each a pure transition from
    the users collection to a result and the collection after it. */
module Session {
  import opened JsValues
  import opened UserModel
  import opened Errors

  /** An access token and a refresh token. */
  datatype Tokens = Tokens(accessToken: string, refreshToken: string)

  /** What the controller calls on a user document or on the token library
      but whose code is not part of this model:
      - `passwordMatches(plain, stored)` is `user.isPasswordCorrect(plain)`;
      - `hash(plain)` is what the pre-save hook stores for a new password;
      - `verifyRefresh(token)` is `jwt.verify(token, REFRESH_TOKEN_SECRET)._id`,
        `None` when verification throws or the claim is missing. */
  datatype Crypto = Crypto(
    passwordMatches: (string, string) -> bool,
    hash: string -> string,
    verifyRefresh: string -> Option<Id>)

  /** The options every cookie is set and cleared with. */
  datatype CookieOptions = CookieOptions(httpOnly: bool, secure: bool)

  datatype CookieOp =
    | SetCookie(name: string, value: string, options: CookieOptions)
    | ClearCookie(name: string, options: CookieOptions)

  /** `{ httpOnly: true, secure: process.env.NODE_ENV === "production" }`. */
  function CookieOptionsFor(env: string): (o: CookieOptions)
    ensures o.httpOnly
    ensures o.secure <==> env == "production"
  {
    CookieOptions(true, env == "production")
  }

  /** A handler's effect: what it answers and the collection after it. */
  datatype Step<+T> = Step(result: Result<T>, store: Store)

  /** `after` differs from `before` in at most `id`'s refresh token. */
  predicate OnlyRefreshTokenChanged(before: Store, after: Store, id: Id) {
    && before.Keys == after.Keys
    && (forall other :: other in before && other != id ==> after[other] == before[other])
    && (id in before ==> after[id] == before[id].(refreshToken := after[id].refreshToken))
  }

  /** `after` differs from `before` in at most `id`'s password. */
  predicate OnlyPasswordChanged(before: Store, after: Store, id: Id) {
    && before.Keys == after.Keys
    && (forall other :: other in before && other != id ==> after[other] == before[other])
    && (id in before ==> after[id] == before[id].(password := after[id].password))
  }

  const RotationFailed: string := "Something went wrong error in generating access and refresh token"

  /** `generateAccessandRefreshToken(userId)`. `minted` is the pair the
      user's token methods sign for this call, or `None` when signing or the
      save throws. Every failure, a missing user included, becomes one 500. */
  function GenerateAccessAndRefreshToken(store: Store, id: Id, minted: Option<Tokens>): (r: Step<Tokens>)
    ensures r.result.Ok? <==> id in store && minted.Some?
    ensures OnlyRefreshTokenChanged(store, r.store, id)
    ensures r.result.Ok? ==> r.result.value == minted.value
    ensures r.result.Ok? ==> r.store[id].refreshToken == Some(minted.value.refreshToken)
    ensures r.result.Err? ==> r.store == store && r.result == Raise(500, RotationFailed)
  {
    if id !in store || minted.None? then
      Step(Raise(500, RotationFailed), store)
    else
      var t := minted.value;
      Step(Ok(200, t), store[id := store[id].(refreshToken := Some(t.refreshToken))])
  }

  datatype LoginRequest = LoginRequest(email: Field, username: Field, password: Field)

  /** The login reply: the sanitised user, both tokens, and the two cookies. */
  datatype LoginPayload = LoginPayload(user: PublicUser, accessToken: string, refreshToken: string, cookies: seq<CookieOp>)

  /** All three login fields are truthy. */
  predicate LoginFieldsPresent(req: LoginRequest) {
    Truthy(req.email) && Truthy(req.username) && Truthy(req.password)
  }

  /** The request names a stored user (by username or by email) whose
      password it knows. */
  predicate Authenticates(store: Store, crypto: Crypto, req: LoginRequest) {
    && LoginFieldsPresent(req)
    && FindOne(store, req.username, req.email).Some?
    && crypto.passwordMatches(req.password.value, store[FindOne(store, req.username, req.email).value].password)
  }

  /** `loginUser`: the three fields in order, then the lookup, then the
      password, and only then rotation. */
  function LoginUser(store: Store, crypto: Crypto, req: LoginRequest, minted: Option<Tokens>, env: string): (r: Step<LoginPayload>)
    ensures !Truthy(req.email) ==> r.result == Raise(400, "Email is required!")
    ensures Truthy(req.email) && !Truthy(req.username) ==> r.result == Raise(400, "Username is required!")
    ensures Truthy(req.email) && Truthy(req.username) && !Truthy(req.password)
      ==> r.result == Raise(400, "Password is required!")
    ensures LoginFieldsPresent(req) && FindOne(store, req.username, req.email).None?
      ==> r.result == Raise(404, "User not found!")
    ensures LoginFieldsPresent(req) && FindOne(store, req.username, req.email).Some? && !Authenticates(store, crypto, req)
      ==> r.result == Raise(401, "Invalid Credentials ")
    ensures Authenticates(store, crypto, req) && minted.None? ==> r.result == Raise(500, RotationFailed)
    ensures r.result.Ok? <==> Authenticates(store, crypto, req) && minted.Some?
    ensures r.result.Err? ==> r.store == store
    ensures r.result.Ok? ==>
      var id := FindOne(store, req.username, req.email).value;
      && r.result.status == 200
      && OnlyRefreshTokenChanged(store, r.store, id)
      && r.store[id].refreshToken == Some(r.result.value.refreshToken)
      && r.result.value.user == Sanitise(id, store[id])
      && Tokens(r.result.value.accessToken, r.result.value.refreshToken) == minted.value
      && r.result.value.cookies == [
           SetCookie("accessToken", minted.value.accessToken, CookieOptionsFor(env)),
           SetCookie("refreshToken", minted.value.refreshToken, CookieOptionsFor(env))]
  {
    if !Truthy(req.email) then Step(Raise(400, "Email is required!"), store)
    else if !Truthy(req.username) then Step(Raise(400, "Username is required!"), store)
    else if !Truthy(req.password) then Step(Raise(400, "Password is required!"), store)
    else
      match FindOne(store, req.username, req.email)
      case None => Step(Raise(404, "User not found!"), store)
      case Some(id) =>
        if !crypto.passwordMatches(req.password.value, store[id].password) then
          Step(Raise(401, "Invalid Credentials "), store)
        else
          var g := GenerateAccessAndRefreshToken(store, id, minted);
          match g.result
          case Err(e) => Step(Err(e), g.store)
          case Ok(_, t) =>
            var options := CookieOptionsFor(env);
            var payload := LoginPayload(
              Sanitise(id, g.store[id]), t.accessToken, t.refreshToken,
              [SetCookie("accessToken", t.accessToken, options), SetCookie("refreshToken", t.refreshToken, options)]);
            Step(Ok(200, payload), g.store)
  }

  datatype LogoutPayload = LogoutPayload(cookies: seq<CookieOp>)

  /** `logOutUser` for the authenticated user `id`: the stored refresh token
      is cleared and both cookies are cleared. A user who no longer exists
      is not an error. */
  function LogOutUser(store: Store, id: Id, env: string): (r: Step<LogoutPayload>)
    ensures r.result.Ok? && r.result.status == 200
    ensures OnlyRefreshTokenChanged(store, r.store, id)
    ensures id in store ==> r.store[id].refreshToken.None?
    ensures id !in store ==> r.store == store
    ensures r.result.value.cookies == [
      ClearCookie("accessToken", CookieOptionsFor(env)),
      ClearCookie("refreshToken", CookieOptionsFor(env))]
  {
    var options := CookieOptionsFor(env);
    var after := if id in store then store[id := store[id].(refreshToken := None)] else store;
    Step(Ok(200, LogoutPayload([ClearCookie("accessToken", options), ClearCookie("refreshToken", options)])), after)
  }

  /** The refresh reply: the new access token, the refresh token the body
      carries (if any), and the cookies set. */
  datatype RefreshPayload = RefreshPayload(accessToken: string, refreshToken: Option<string>, cookies: seq<CookieOp>)

  /** `req.cookies.refreshToken || req.body.refreshToken`. */
  function Incoming(cookie: Field, body: Field): (t: Field)
    ensures Truthy(t) <==> Truthy(cookie) || Truthy(body)
    ensures Truthy(cookie) ==> t == cookie
    ensures !Truthy(cookie) ==> t == body
  {
    if Truthy(cookie) then cookie else body
  }

  /** `token` verifies to a stored user whose current refresh token it is. */
  predicate IsCurrentRefreshToken(store: Store, crypto: Crypto, token: string) {
    var claim := crypto.verifyRefresh(token);
    claim.Some? && claim.value in store && store[claim.value].refreshToken == Some(token)
  }

  const RefreshFailed: string := "Something went wrong while refreshing access token"

  /** `refreshAccessToken` as written. Everything inside its `try` that
      throws, the handler's own 401s included, is rethrown as one 500; and
      on success the reply reads a `newRefreshToken` property that rotation
      does not return, so the body carries no refresh token and the cookie
      is set to `String(undefined)`. */
  function RefreshAccessToken(store: Store, crypto: Crypto, cookie: Field, body: Field, minted: Option<Tokens>, env: string): (r: Step<RefreshPayload>)
    ensures (r.result.Err? && StatusOf(r.result.error) == 401) <==> !Truthy(Incoming(cookie, body))
    ensures Truthy(Incoming(cookie, body)) && r.result.Err? ==> r.result == Raise(500, RefreshFailed)
    ensures r.result.Ok? <==>
      Truthy(Incoming(cookie, body)) && IsCurrentRefreshToken(store, crypto, Incoming(cookie, body).value) && minted.Some?
    ensures r.result.Err? ==> r.store == store
    ensures r.result.Ok? ==> r.result.status == 200
    ensures r.result.Ok? ==>
      var id := crypto.verifyRefresh(Incoming(cookie, body).value).value;
      && OnlyRefreshTokenChanged(store, r.store, id)
      && r.store[id].refreshToken == Some(minted.value.refreshToken)
      && r.result.value.accessToken == minted.value.accessToken
      && r.result.value.refreshToken.None?
      && r.result.value.cookies == [
           SetCookie("accessToken", minted.value.accessToken, CookieOptionsFor(env)),
           SetCookie("refreshToken", "undefined", CookieOptionsFor(env))]
  {
    var incoming := Incoming(cookie, body);
    if !Truthy(incoming) then Step(Raise(401, "Refresh token is required!"), store)
    else
      var token := incoming.value;
      match crypto.verifyRefresh(token)
      case None => Step(Raise(500, RefreshFailed), store)
      case Some(id) =>
        if id !in store then Step(Raise(500, RefreshFailed), store)
        else if store[id].refreshToken != Some(token) then Step(Raise(500, RefreshFailed), store)
        else
          var g := GenerateAccessAndRefreshToken(store, id, minted);
          match g.result
          case Err(_) => Step(Raise(500, RefreshFailed), g.store)
          case Ok(_, t) =>
            var options := CookieOptionsFor(env);
            var payload := RefreshPayload(
              t.accessToken, None,
              [SetCookie("accessToken", t.accessToken, options), SetCookie("refreshToken", "undefined", options)]);
            Step(Ok(200, payload), g.store)
  }

  /** `refreshAccessToken` as evidently intended: an invalid, unknown or
      stale token is answered 401, a failed rotation keeps its own 500, and
      the new refresh token is handed back in the body and the cookie. */
  function RefreshAccessTokenFixed(store: Store, crypto: Crypto, cookie: Field, body: Field, minted: Option<Tokens>, env: string): (r: Step<RefreshPayload>)
    ensures (r.result.Err? && StatusOf(r.result.error) == 401) <==>
      !Truthy(Incoming(cookie, body)) || !IsCurrentRefreshToken(store, crypto, Incoming(cookie, body).value)
    ensures r.result.Ok? <==>
      Truthy(Incoming(cookie, body)) && IsCurrentRefreshToken(store, crypto, Incoming(cookie, body).value) && minted.Some?
    ensures r.result.Err? ==> r.store == store
    ensures r.result.Ok? ==> r.result.status == 200
    ensures r.result.Ok? ==>
      var id := crypto.verifyRefresh(Incoming(cookie, body).value).value;
      && OnlyRefreshTokenChanged(store, r.store, id)
      && r.store[id].refreshToken == Some(minted.value.refreshToken)
      && r.result.value.accessToken == minted.value.accessToken
      && r.result.value.refreshToken == Some(minted.value.refreshToken)
      && r.result.value.cookies == [
           SetCookie("accessToken", minted.value.accessToken, CookieOptionsFor(env)),
           SetCookie("refreshToken", minted.value.refreshToken, CookieOptionsFor(env))]
  {
    var incoming := Incoming(cookie, body);
    if !Truthy(incoming) then Step(Raise(401, "Refresh token is required!"), store)
    else
      var token := incoming.value;
      match crypto.verifyRefresh(token)
      case None => Step(Raise(401, "Invalid refresh token"), store)
      case Some(id) =>
        if id !in store then Step(Raise(401, "Invalid refresh token!"), store)
        else if store[id].refreshToken != Some(token) then Step(Raise(401, "Invalid refresh token"), store)
        else
          var g := GenerateAccessAndRefreshToken(store, id, minted);
          match g.result
          case Err(e) => Step(Err(e), g.store)
          case Ok(_, t) =>
            var options := CookieOptionsFor(env);
            var payload := RefreshPayload(
              t.accessToken, Some(t.refreshToken),
              [SetCookie("accessToken", t.accessToken, options), SetCookie("refreshToken", t.refreshToken, options)]);
            Step(Ok(200, payload), g.store)
  }

  /** `changeCurrentPassword` for the authenticated user `id`. A user who no
      longer exists makes `user.isPasswordCorrect` throw a `TypeError`. */
  function ChangeCurrentPassword(store: Store, crypto: Crypto, id: Id, oldPassword: string, newPassword: string): (r: Step<()>)
    ensures id !in store ==> r.result.Err? && r.result.error.Foreign? && StatusOf(r.result.error) == 0
    ensures id in store && !crypto.passwordMatches(oldPassword, store[id].password)
      ==> r.result == Raise(401, "Invalid old password")
    ensures r.result.Ok? <==> id in store && crypto.passwordMatches(oldPassword, store[id].password)
    ensures r.result.Err? ==> r.store == store
    ensures r.result.Ok? ==> r.result.status == 200
    ensures r.result.Ok? ==>
      && OnlyPasswordChanged(store, r.store, id)
      && r.store[id].password == crypto.hash(newPassword)
  {
    if id !in store then
      Step(RuntimeFailure("Cannot read properties of null (reading 'isPasswordCorrect')"), store)
    else if !crypto.passwordMatches(oldPassword, store[id].password) then
      Step(Raise(401, "Invalid old password"), store)
    else
      Step(Ok(200, ()), store[id := store[id].(password := crypto.hash(newPassword))])
  }

  /** Rotation and logout touch only a refresh token, so they keep the
      collection well formed. */
  lemma RefreshTokenChangesPreserveWellFormed(before: Store, after: Store, id: Id)
    requires WellFormed(before)
    requires OnlyRefreshTokenChanged(before, after, id)
    ensures WellFormed(after)
  {
    forall a | a in after ensures after[a].username == before[a].username && after[a].email == before[a].email {
      if a != id {
        assert after[a] == before[a];
      }
    }
  }

  /** A password change touches only a password, so it keeps the collection
      well formed. */
  lemma PasswordChangesPreserveWellFormed(before: Store, after: Store, id: Id)
    requires WellFormed(before)
    requires OnlyPasswordChanged(before, after, id)
    ensures WellFormed(after)
  {
    forall a | a in after ensures after[a].username == before[a].username && after[a].email == before[a].email {
      if a != id {
        assert after[a] == before[a];
      }
    }
  }

  /** After logout no presented token passes the refresh handler's equality
      check for that user: as written the attempt is answered 500, as
      intended 401, and nothing is written either way. */
  lemma LogoutRevokesRefresh(store: Store, crypto: Crypto, id: Id, token: string, body: Field, minted: Option<Tokens>, env: string)
    requires token != ""
    requires crypto.verifyRefresh(token) == Some(id)
    ensures var after := LogOutUser(store, id, env).store;
      && !IsCurrentRefreshToken(after, crypto, token)
      && RefreshAccessToken(after, crypto, Some(token), body, minted, env)
         == Step(Raise(500, RefreshFailed), after)
      && var fixed := RefreshAccessTokenFixed(after, crypto, Some(token), body, minted, env);
         fixed.result.Err? && StatusOf(fixed.result.error) == 401 && fixed.store == after
  {
    var after := LogOutUser(store, id, env).store;
    if id in store {
      assert after[id].refreshToken.None?;
    } else {
      assert id !in after;
    }
  }

  /** Rotation revokes the token it replaces: once a refresh has succeeded
      with `token` and stored a different one, presenting `token` again is
      rejected (500 as written, 401 as intended) and writes nothing. */
  lemma StaleRefreshTokenRejected(store: Store, crypto: Crypto, token: string, minted: Tokens, again: Option<Tokens>, env: string)
    requires token != ""
    requires IsCurrentRefreshToken(store, crypto, token)
    requires minted.refreshToken != token
    ensures var first := RefreshAccessTokenFixed(store, crypto, Some(token), None, Some(minted), env);
      && first.result.Ok?
      && RefreshAccessTokenFixed(first.store, crypto, Some(token), None, again, env)
         == Step(Raise(401, "Invalid refresh token"), first.store)
    ensures var first := RefreshAccessToken(store, crypto, Some(token), None, Some(minted), env);
      && first.result.Ok?
      && RefreshAccessToken(first.store, crypto, Some(token), None, again, env)
         == Step(Raise(500, RefreshFailed), first.store)
  {
    var id := crypto.verifyRefresh(token).value;
    var first := RefreshAccessTokenFixed(store, crypto, Some(token), None, Some(minted), env);
    assert first.store[id].refreshToken == Some(minted.refreshToken);
    var first' := RefreshAccessToken(store, crypto, Some(token), None, Some(minted), env);
    assert first'.store[id].refreshToken == Some(minted.refreshToken);
  }

  /** The session as intended: the refresh token a login hands out can be
      exchanged once, the exchange hands back the next one, and the one
      handed out at login is dead afterwards. */
  lemma LoginThenRefreshRotates(store: Store, crypto: Crypto, req: LoginRequest, m1: Tokens, m2: Tokens, env: string)
    requires LoginUser(store, crypto, req, Some(m1), env).result.Ok?
    requires crypto.verifyRefresh(m1.refreshToken) == Some(FindOne(store, req.username, req.email).value)
    requires m1.refreshToken != "" && m2.refreshToken != m1.refreshToken
    ensures var login := LoginUser(store, crypto, req, Some(m1), env);
      var refresh := RefreshAccessTokenFixed(login.store, crypto, Some(login.result.value.refreshToken), None, Some(m2), env);
      && refresh.result.Ok?
      && refresh.result.value.refreshToken == Some(m2.refreshToken)
      && RefreshAccessTokenFixed(refresh.store, crypto, Some(m1.refreshToken), None, Some(m2), env).result
         == Raise(401, "Invalid refresh token")
  {
    var login := LoginUser(store, crypto, req, Some(m1), env);
    var id := FindOne(store, req.username, req.email).value;
    assert login.store[id].refreshToken == Some(m1.refreshToken);
    assert IsCurrentRefreshToken(login.store, crypto, m1.refreshToken);
    StaleRefreshTokenRejected(login.store, crypto, m1.refreshToken, m2, Some(m2), env);
  }

  /** The session as written: a successful refresh stores the new token but
      hands it to nobody, so the client can only present the old token or
      the cookie value "undefined", and both are refused from then on. */
  lemma AsWrittenRefreshLocksClientOut(store: Store, crypto: Crypto, token: string, minted: Tokens, again: Option<Tokens>, env: string)
    requires token != ""
    requires IsCurrentRefreshToken(store, crypto, token)
    requires minted.refreshToken != token && minted.refreshToken != "undefined"
    requires crypto.verifyRefresh("undefined").None?
    ensures var first := RefreshAccessToken(store, crypto, Some(token), None, Some(minted), env);
      && first.result.Ok?
      && first.result.value.refreshToken.None?
      && first.store[crypto.verifyRefresh(token).value].refreshToken == Some(minted.refreshToken)
      && first.result.value.cookies[1] == SetCookie("refreshToken", "undefined", CookieOptionsFor(env))
      && RefreshAccessToken(first.store, crypto, Some(token), None, again, env).result.Err?
      && RefreshAccessToken(first.store, crypto, Some("undefined"), None, again, env).result.Err?
  {
    StaleRefreshTokenRejected(store, crypto, token, minted, again, env);
  }

  /** A password change leaves every session alive: exactly the same
      refresh tokens are current before and after it. */
  lemma PasswordChangeKeepsSessions(store: Store, crypto: Crypto, id: Id, oldPassword: string, newPassword: string, token: string)
    ensures var after := ChangeCurrentPassword(store, crypto, id, oldPassword, newPassword).store;
      IsCurrentRefreshToken(after, crypto, token) <==> IsCurrentRefreshToken(store, crypto, token)
  {
    var after := ChangeCurrentPassword(store, crypto, id, oldPassword, newPassword).store;
    var claim := crypto.verifyRefresh(token);
    if claim.Some? && claim.value in store {
      assert after[claim.value].refreshToken == store[claim.value].refreshToken;
    }
  }

  /** In a well-formed collection a user's own username and email select
      that user and nobody else. */
  lemma OwnCredentialsFindUser(store: Store, id: Id)
    requires WellFormed(store)
    requires id in store
    ensures FindOne(store, Some(store[id].username), Some(store[id].email)) == Some(id)
  {
    var name, mail := store[id].username, store[id].email;
    forall j | j in store
      ensures MatchesUsernameOrEmail(store[j], Some(name), Some(mail)) <==> j == id
    {
      MatchesExactlyWhenCanonical(store[j], name, mail);
    }
  }

  /** With a hash the password check accepts, a changed password is the one
      that logs in afterwards, by username and email. */
  lemma PasswordChangeThenLogin(store: Store, crypto: Crypto, id: Id, oldPassword: string, newPassword: string, minted: Tokens, env: string)
    requires WellFormed(store)
    requires forall p :: crypto.passwordMatches(p, crypto.hash(p))
    requires id in store && crypto.passwordMatches(oldPassword, store[id].password)
    requires store[id].username != "" && store[id].email != "" && newPassword != ""
    ensures var after := ChangeCurrentPassword(store, crypto, id, oldPassword, newPassword).store;
      var login := LoginUser(after, crypto, LoginRequest(Some(store[id].email), Some(store[id].username), Some(newPassword)), Some(minted), env);
      && login.result.Ok?
      && login.result.value.user == Sanitise(id, store[id])
  {
    var after := ChangeCurrentPassword(store, crypto, id, oldPassword, newPassword).store;
    PasswordChangesPreserveWellFormed(store, after, id);
    assert after[id].username == store[id].username && after[id].email == store[id].email;
    OwnCredentialsFindUser(after, id);
    assert after[id].password == crypto.hash(newPassword);
  }
}

=== FILE: social_graph.dfy ===
/** The two aggregation reads of `src/controllers/user.controller.js`:
    a channel's profile with its subscription counts, and a user's watch
    history with each video's owner. Subscriptions are the directed edges of
    `src/models/subscription.models.js`; duplicates are allowed. */
module SocialGraph {
  import opened JsValues
  import opened UserModel
  import opened Errors

  /** A subscription document: `subscriber` follows `channel`. */
  datatype Edge = Edge(subscriber: Id, channel: Id)

  /** The `foreignField` a `$lookup` into subscriptions joins on. */
  datatype EdgeField = SubscriberField | ChannelField

  function KeyOf(e: Edge, f: EdgeField): Id {
    match f
    case SubscriberField => e.subscriber
    case ChannelField => e.channel
  }

  /** `$lookup { from: "subscriptions", localField: "_id", foreignField: f }`
      for the document `id`: the matching edges, in collection order. */
  function Lookup(edges: seq<Edge>, f: EdgeField, id: Id): (r: seq<Edge>)
    ensures forall e :: e in r <==> e in edges && KeyOf(e, f) == id
    ensures |r| <= |edges|
  {
    if edges == [] then []
    else
      var last := edges[|edges| - 1];
      Lookup(edges[..|edges| - 1], f, id) + (if KeyOf(last, f) == id then [last] else [])
  }

  /** The positions of the edges whose `f` is `id`: what "the number of
      subscriptions with `channel == id`" means, independently of any join. */
  function Positions(edges: seq<Edge>, f: EdgeField, id: Id): set<nat> {
    set i: nat | i < |edges| && KeyOf(edges[i], f) == id
  }

  /** The size of a lookup counts every matching edge, duplicates included. */
  lemma {:induction false} LookupSizeCountsEdges(edges: seq<Edge>, f: EdgeField, id: Id)
    ensures |Lookup(edges, f, id)| == |Positions(edges, f, id)|
    decreases |edges|
  {
    if edges != [] {
      var n := |edges| - 1;
      LookupSizeCountsEdges(edges[..n], f, id);
      PositionsOfSnoc(edges, f, id);
      assert n !in Positions(edges[..n], f, id);
    }
  }

  /** Appending an edge adds its position exactly when it matches. */
  lemma PositionsOfSnoc(edges: seq<Edge>, f: EdgeField, id: Id)
    requires edges != []
    ensures var n := |edges| - 1;
      Positions(edges, f, id)
      == Positions(edges[..n], f, id) + (if KeyOf(edges[n], f) == id then {n} else {})
  {
    var n := |edges| - 1;
    var whole, part := Positions(edges, f, id), Positions(edges[..n], f, id);
    var extra: set<nat> := if KeyOf(edges[n], f) == id then {n} else {};
    forall i | i in whole ensures i in part + extra {
      if i < n {
        assert edges[..n][i] == edges[i];
      }
    }
    forall i | i in part + extra ensures i in whole {
      if i < n {
        assert edges[..n][i] == edges[i];
      }
    }
  }

  /** `"$subscribers.subscriber"`: the subscriber of each looked-up edge. */
  function SubscriberIds(subscribers: seq<Edge>): (ids: seq<Id>)
    ensures |ids| == |subscribers|
    ensures forall i :: 0 <= i < |ids| ==> ids[i] == subscribers[i].subscriber
  {
    if subscribers == [] then []
    else [subscribers[0].subscriber] + SubscriberIds(subscribers[1..])
  }

  /** `$cond: { if: { $in: [req.user?._id, "$subscribers.subscriber"] } }`;
      an absent viewer is in no list of ids. */
  function IsSubscribedTo(edges: seq<Edge>, channel: Id, viewer: Option<Id>): (b: bool)
    ensures b <==> viewer.Some? && Edge(viewer.value, channel) in edges
  {
    var subscribers := Lookup(edges, ChannelField, channel);
    var ids := SubscriberIds(subscribers);
    if viewer.Some? && viewer.value in ids then
      var i :| 0 <= i < |ids| && ids[i] == viewer.value;
      assert subscribers[i] in subscribers;
      assert subscribers[i] == Edge(viewer.value, channel);
      true
    else
      assert viewer.Some? ==> Edge(viewer.value, channel) !in subscribers;
      false
  }

  /** The `$project` of a channel profile (with the `_id` it keeps). */
  datatype ChannelProfile = ChannelProfile(
    id: Id,
    fullname: string,
    username: string,
    avatar: string,
    subscribersCount: nat,
    channelSubscribedTo: nat,
    isSubscribedTo: bool,
    coverImage: string,
    email: string)

  /** `User.aggregate([{ $match: { username: name } }, ...])[0]`: the
      documents whose stored username is exactly `name`; this model takes
      the one with the least id. */
  function FindByUsername(store: Store, name: string): (r: Option<Id>)
    ensures r.None? <==> forall id :: id in store ==> store[id].username != name
    ensures r.Some? ==> r.value in store && store[r.value].username == name
  {
    var hits := set id | id in store && store[id].username == name;
    assert forall id :: id in store && store[id].username == name ==> id in hits;
    if hits == {} then None else Some(Least(hits))
  }

  /** The message the database fails the aggregation with when `$size` is
      handed a string. */
  const SizeOfString: string := "The argument to $size must be an array. Type of argument: string"

  /** `getUserChannelProfile` as written. The `channelSubscribedTo` stage
      applies `$size` to the literal string "subscribedTo" rather than to the
      looked-up array, so as soon as a document reaches that stage the
      database fails the whole aggregation. Whether the database already
      fails when no document matches depends on whether it evaluates the
      constant expression ahead of the documents; `foldsConstants` chooses. */
  function GetUserChannelProfile(store: Store, edges: seq<Edge>, username: string, viewer: Option<Id>, foldsConstants: bool): (r: Result<ChannelProfile>)
    ensures AllWhitespace(username) ==> r == Raise(400, "Username is required")
    ensures !AllWhitespace(username) && !foldsConstants && FindByUsername(store, Lower(username)).None?
      ==> r == Raise(404, "Channel not found")
    ensures !AllWhitespace(username) && (foldsConstants || FindByUsername(store, Lower(username)).Some?)
      ==> r.Err? && r.error.Foreign? && StatusOf(r.error) == 0
  {
    if Trim(username) == "" then Raise(400, "Username is required")
    else if foldsConstants then RuntimeFailure(SizeOfString)
    else
      match FindByUsername(store, Lower(username))
      case None => Raise(404, "Channel not found")
      case Some(_) => RuntimeFailure(SizeOfString)
  }

  /** The `subscribedTo` lookup as written: it joins on `channel`, the same
      field as the `subscribers` lookup. */
  function SubscribedToAsWritten(edges: seq<Edge>, id: Id): (r: seq<Edge>)
    ensures forall e :: e in r <==> e in edges && e.channel == id
  {
    Lookup(edges, ChannelField, id)
  }

  /** The `subscribedTo` lookup as evidently intended: the edges whose
      subscriber is the channel's owner. */
  function SubscribedTo(edges: seq<Edge>, id: Id): (r: seq<Edge>)
    ensures forall e :: e in r <==> e in edges && e.subscriber == id
  {
    Lookup(edges, SubscriberField, id)
  }

  /** `getUserChannelProfile` as evidently intended: `$size` applied to the
      `subscribedTo` array, and that array joined on `subscriber`. */
  function GetUserChannelProfileFixed(store: Store, edges: seq<Edge>, username: string, viewer: Option<Id>): (r: Result<ChannelProfile>)
    ensures AllWhitespace(username) ==> r == Raise(400, "Username is required")
    ensures !AllWhitespace(username) && FindByUsername(store, Lower(username)).None?
      ==> r == Raise(404, "Channel not found")
    ensures r.Ok? ==>
      && r.status == 200
      && r.value.id in store
      && r.value.username == Lower(username)
      && r.value.username == store[r.value.id].username
      && r.value.fullname == store[r.value.id].fullname
      && r.value.avatar == store[r.value.id].avatar
      && r.value.coverImage == store[r.value.id].coverImage
      && r.value.email == store[r.value.id].email
      && r.value.isSubscribedTo == (viewer.Some? && Edge(viewer.value, r.value.id) in edges)
      && r.value.subscribersCount == |Positions(edges, ChannelField, r.value.id)|
      && r.value.channelSubscribedTo == |Positions(edges, SubscriberField, r.value.id)|
    ensures r.Ok? || AllWhitespace(username) || FindByUsername(store, Lower(username)).None?
  {
    if Trim(username) == "" then Raise(400, "Username is required")
    else
      match FindByUsername(store, Lower(username))
      case None => Raise(404, "Channel not found")
      case Some(id) =>
        var u := store[id];
        LookupSizeCountsEdges(edges, ChannelField, id);
        LookupSizeCountsEdges(edges, SubscriberField, id);
        Ok(200, ChannelProfile(
          id, u.fullname, u.username, u.avatar,
          |Lookup(edges, ChannelField, id)|,
          |SubscribedTo(edges, id)|,
          IsSubscribedTo(edges, id, viewer),
          u.coverImage, u.email))
  }

  /** A video document; only its id and its `owner` reference matter here. */
  datatype Video = Video(id: Id, owner: Id)

  /** An owner as the inner `$project` leaves it. */
  datatype OwnerView = OwnerView(id: Id, username: string, avatar: string, fullname: Option<string>)

  /** A watch-history entry: the video with `owner` replaced by the first
      looked-up owner, or absent when the lookup found nobody. */
  datatype WatchedVideo = WatchedVideo(id: Id, owner: Option<OwnerView>)

  /** The inner `$project: { fullName: 1, username: 1, avatar: 1 }` as
      written: the schema's field is `fullname`, so the full name is dropped. */
  function ProjectOwnerAsWritten(id: Id, u: User): (o: OwnerView)
    ensures o.id == id && o.username == u.username && o.avatar == u.avatar
    ensures o.fullname.None?
  {
    OwnerView(id, u.username, u.avatar, None)
  }

  /** The inner projection as evidently intended, keeping the full name. */
  function ProjectOwner(id: Id, u: User): (o: OwnerView)
    ensures o.id == id && o.username == u.username && o.avatar == u.avatar
    ensures o.fullname == Some(u.fullname)
  {
    OwnerView(id, u.username, u.avatar, Some(u.fullname))
  }

  /** The inner `$lookup` of users on `owner`: at most one, ids being keys. */
  function OwnerLookup(store: Store, owner: Id, project: (Id, User) -> OwnerView): (r: seq<OwnerView>)
    ensures |r| <= 1
    ensures |r| == 1 <==> owner in store
    ensures owner in store ==> r[0] == project(owner, store[owner])
  {
    if owner in store then [project(owner, store[owner])] else []
  }

  /** `$first`: the first element, or nothing for an empty array. */
  function First<T>(s: seq<T>): (r: Option<T>)
    ensures r.Some? <==> |s| > 0
    ensures r.Some? ==> r.value == s[0]
  {
    if |s| > 0 then Some(s[0]) else None
  }

  /** One video through the inner pipeline. */
  function Enrich(store: Store, v: Video, project: (Id, User) -> OwnerView): (w: WatchedVideo)
    ensures w.id == v.id
    ensures w.owner.Some? <==> v.owner in store
    ensures w.owner.Some? ==> w.owner.value == project(v.owner, store[v.owner])
  {
    WatchedVideo(v.id, First(OwnerLookup(store, v.owner, project)))
  }

  /** The outer `$lookup` of videos whose `_id` is in `history`, each through
      the inner pipeline. The database promises no order for this result;
      this model lists the videos in collection order, and its contract
      speaks only of which entries are present. */
  function JoinHistory(store: Store, videos: seq<Video>, history: seq<Id>, project: (Id, User) -> OwnerView): (r: seq<WatchedVideo>)
    ensures forall w :: w in r <==>
      exists v :: v in videos && v.id in history && w == Enrich(store, v, project)
    ensures |r| <= |videos|
  {
    if videos == [] then []
    else
      var rest := JoinHistory(store, videos[1..], history, project);
      var v := videos[0];
      assert forall x :: x in videos <==> x == v || x in videos[1..];
      if v.id in history then [Enrich(store, v, project)] + rest else rest
  }

  /** `getWatchHistory` for the authenticated user `uid` as written; a user
      the aggregation does not find makes `user[0].watchHistory` throw. */
  function GetWatchHistory(store: Store, videos: seq<Video>, uid: Id): (r: Result<seq<WatchedVideo>>)
    ensures r.Ok? <==> uid in store
    ensures r.Err? ==> r.error.Foreign? && StatusOf(r.error) == 0
    ensures r.Ok? ==> r.status == 200 && forall w :: w in r.value <==>
      exists v :: v in videos && v.id in store[uid].watchHistory && w == Enrich(store, v, ProjectOwnerAsWritten)
    ensures r.Ok? ==> forall w :: w in r.value && w.owner.Some? ==> w.owner.value.fullname.None?
  {
    if uid !in store then RuntimeFailure("Cannot read properties of undefined (reading 'watchHistory')")
    else Ok(200, JoinHistory(store, videos, store[uid].watchHistory, ProjectOwnerAsWritten))
  }

  /** `getWatchHistory` with the owner projection naming `fullname`. */
  function GetWatchHistoryFixed(store: Store, videos: seq<Video>, uid: Id): (r: Result<seq<WatchedVideo>>)
    ensures r.Ok? <==> uid in store
    ensures r.Ok? ==> r.status == 200 && forall w :: w in r.value <==>
      exists v :: v in videos && v.id in store[uid].watchHistory && w == Enrich(store, v, ProjectOwner)
  {
    if uid !in store then RuntimeFailure("Cannot read properties of undefined (reading 'watchHistory')")
    else Ok(200, JoinHistory(store, videos, store[uid].watchHistory, ProjectOwner))
  }

  /** As written, the `subscribedTo` lookup is the `subscribers` lookup
      again: its size is the subscriber count, not the number of channels
      the user follows. A user who follows one channel and has no
      subscribers shows the difference. */
  lemma SubscribedToAsWrittenCountsSubscribers(edges: seq<Edge>, id: Id)
    ensures |SubscribedToAsWritten(edges, id)| == |Positions(edges, ChannelField, id)|
    ensures |SubscribedTo([Edge(1, 2)], 1)| == 1 && |SubscribedToAsWritten([Edge(1, 2)], 1)| == 0
  {
    assert SubscribedToAsWritten(edges, id) == Lookup(edges, ChannelField, id);
    LookupSizeCountsEdges(edges, ChannelField, id);
    LookupSizeCountsEdges([Edge(1, 2)], SubscriberField, 1);
    assert Positions([Edge(1, 2)], SubscriberField, 1) == {0};
  }

  /** As written the channel profile never succeeds: every input is
      refused, and once a channel matches the error middleware answers 500,
      where the intended pipeline answers 200. */
  lemma ChannelProfileNeverSucceeds(store: Store, edges: seq<Edge>, username: string, viewer: Option<Id>, foldsConstants: bool, env: string)
    ensures GetUserChannelProfile(store, edges, username, viewer, foldsConstants).Err?
    ensures !AllWhitespace(username) && FindByUsername(store, Lower(username)).Some? ==>
      && ErrorHandler(GetUserChannelProfile(store, edges, username, viewer, foldsConstants).error, env).status == 500
      && GetUserChannelProfileFixed(store, edges, username, viewer).Ok?
    ensures AllWhitespace(username) || (!foldsConstants && FindByUsername(store, Lower(username)).None?) ==>
      GetUserChannelProfile(store, edges, username, viewer, foldsConstants) == GetUserChannelProfileFixed(store, edges, username, viewer)
  {
  }

  /** The watch history depends on which videos the user watched, not on the
      order or the repetitions of the history. */
  lemma {:induction false} WatchHistoryIgnoresHistoryOrder(store: Store, videos: seq<Video>, h1: seq<Id>, h2: seq<Id>, project: (Id, User) -> OwnerView)
    requires forall x :: x in h1 <==> x in h2
    ensures JoinHistory(store, videos, h1, project) == JoinHistory(store, videos, h2, project)
    decreases |videos|
  {
    if videos != [] {
      WatchHistoryIgnoresHistoryOrder(store, videos[1..], h1, h2, project);
    }
  }

  /** As written an owner never carries a full name; as intended it carries
      the owner's. */
  lemma WatchHistoryOwnerFullname(store: Store, videos: seq<Video>, uid: Id, vid: Id, owner: Id)
    requires uid in store && vid in store[uid].watchHistory
    requires owner in store && Video(vid, owner) in videos
    ensures WatchedVideo(vid, Some(ProjectOwner(owner, store[owner]))) in GetWatchHistoryFixed(store, videos, uid).value
    ensures WatchedVideo(vid, Some(ProjectOwnerAsWritten(owner, store[owner]))) in GetWatchHistory(store, videos, uid).value
    ensures WatchedVideo(vid, Some(ProjectOwner(owner, store[owner]))) !in GetWatchHistory(store, videos, uid).value
  {
    assert Enrich(store, Video(vid, owner), ProjectOwner) == WatchedVideo(vid, Some(ProjectOwner(owner, store[owner])));
    assert Enrich(store, Video(vid, owner), ProjectOwnerAsWritten) == WatchedVideo(vid, Some(ProjectOwnerAsWritten(owner, store[owner])));
  }
}

=== FILE: user_model.dfy ===
/** The `User` document of `src/models/user.models.js`, the users collection
    as a map from document id to document, and the few queries the controller
    runs against it. */
module UserModel {
  import opened JsValues

  /** A document id (`ObjectId`). */
  type Id = nat

  /** A stored user. `password` holds whatever the (unshown) pre-save hook
      wrote; `refreshToken` is absent until the first login. The schema's
      timestamps are not modelled. */
  datatype User = User(
    username: string,
    email: string,
    fullname: string,
    avatar: string,
    coverImage: string,
    watchHistory: seq<Id>,
    password: string,
    refreshToken: Option<string>)

  /** The users collection. */
  type Store = map<Id, User>

  /** What the controller hands back to clients: a user document read with
      `select("-password -refreshToken")`. */
  datatype PublicUser = PublicUser(
    id: Id,
    username: string,
    email: string,
    fullname: string,
    avatar: string,
    coverImage: string,
    watchHistory: seq<Id>)

  /** The document `Sanitise` was made from, given back the two fields it
      hides. */
  function Restore(p: PublicUser, password: string, refreshToken: Option<string>): User {
    User(p.username, p.email, p.fullname, p.avatar, p.coverImage, p.watchHistory, password, refreshToken)
  }

  /** A document read with `select("-password -refreshToken")`: everything
      but the two secrets survives, so putting them back restores it. */
  function Sanitise(id: Id, u: User): (p: PublicUser)
    ensures p.id == id
    ensures Restore(p, u.password, u.refreshToken) == u
  {
    PublicUser(id, u.username, u.email, u.fullname, u.avatar, u.coverImage, u.watchHistory)
  }

  /** Sanitising forgets the password and the refresh token and nothing else:
      two documents look the same to a client exactly when they differ at
      most in those two fields. */
  lemma SanitiseForgetsExactlySecrets(id: Id, u: User, id': Id, u': User)
    ensures Sanitise(id, u) == Sanitise(id', u')
        <==> id == id' && u.(password := u'.password, refreshToken := u'.refreshToken) == u'
  {
  }

  /** The value the schema's `lowercase: true, trim: true` setters store for
      a username or an email (lower-casing first, then trimming). */
  function Canonical(s: string): (r: string)
    ensures r == Lower(Trim(s))
    ensures IsLowerCase(r) && IsTrimmed(r)
    ensures r == "" <==> AllWhitespace(s)
  {
    var t := Trim(s);
    LowerCommutesWithTrim(s);
    assert |Lower(t)| == |t|;
    Trim(Lower(s))
  }

  predicate IsCanonical(s: string) {
    IsLowerCase(s) && IsTrimmed(s)
  }

  /** The setters are a projection: they fix exactly the canonical strings,
      so applying them twice is applying them once. */
  lemma CanonicalFixesExactlyCanonical(s: string)
    ensures Canonical(s) == s <==> IsCanonical(s)
    ensures Canonical(Canonical(s)) == Canonical(s)
  {
    if IsCanonical(s) {
      LowerFixesExactlyLowerCase(s);
      TrimFixesExactlyTrimmed(s);
    }
    var c := Canonical(s);
    LowerFixesExactlyLowerCase(c);
    TrimFixesExactlyTrimmed(c);
  }

  /** `toLowerCase` followed by the setters is just the setters. */
  lemma CanonicalAbsorbsLower(s: string)
    ensures Canonical(Lower(s)) == Canonical(s)
  {
    LowerIdempotent(s);
  }

  /** The per-document normalisation the schema's setters establish. */
  predicate WellFormedUser(u: User) {
    && IsCanonical(u.username)
    && IsCanonical(u.email)
    && IsTrimmed(u.fullname)
  }

  /** The `required: true` options, which only creation validates. */
  predicate HasRequiredFields(u: User) {
    u.username != "" && u.email != "" && u.fullname != ""
    && u.avatar != "" && u.coverImage != "" && u.password != ""
  }

  /** The collection invariant: every document normalised, and the two
      unique indexes (username, email) respected. */
  predicate WellFormed(store: Store) {
    && (forall id :: id in store ==> WellFormedUser(store[id]))
    && (forall a, b :: a in store && b in store && store[a].username == store[b].username ==> a == b)
    && (forall a, b :: a in store && b in store && store[a].email == store[b].email ==> a == b)
  }

  /** Would writing `u` under `id` violate a unique index? */
  predicate Collides(store: Store, id: Id, u: User) {
    exists other :: other in store && other != id
      && (store[other].username == u.username || store[other].email == u.email)
  }

  /** Storing a normalised document that breaks no unique index keeps the
      collection well formed. */
  lemma PutPreservesWellFormed(store: Store, id: Id, u: User)
    requires WellFormed(store)
    requires WellFormedUser(u)
    requires !Collides(store, id, u)
    ensures WellFormed(store[id := u])
  {
  }

  /** Does the filter `{ $or: [{ username }, { email }] }` select `u`? The
      schema's setters are applied to the query values; an absent value
      selects nothing, since every stored user has both fields. */
  predicate MatchesUsernameOrEmail(u: User, username: Field, email: Field)
    ensures username.None? && email.None? ==> !MatchesUsernameOrEmail(u, username, email)
    ensures IsCanonical(u.username) && username == Some(u.username) ==> MatchesUsernameOrEmail(u, username, email)
    ensures IsCanonical(u.email) && email == Some(u.email) ==> MatchesUsernameOrEmail(u, username, email)
  {
    CanonicalFixesExactlyCanonical(u.username);
    CanonicalFixesExactlyCanonical(u.email);
    || (username.Some? && u.username == Canonical(username.value))
    || (email.Some? && u.email == Canonical(email.value))
  }

  /** `m` is the least element of `s`. */
  predicate IsLeast(m: Id, s: set<Id>) {
    m in s && forall y :: y in s ==> m <= y
  }

  /** The least element of a non-empty set of ids. */
  function Least(s: set<Id>): (m: Id)
    requires s != {}
    ensures IsLeast(m, s)
  {
    LeastExists(s);
    var m :| IsLeast(m, s);
    m
  }

  lemma {:induction false} LeastExists(s: set<Id>)
    requires s != {}
    ensures exists m :: IsLeast(m, s)
    decreases |s|
  {
    var x :| x in s;
    var rest := s - {x};
    if rest == {} {
      forall y | y in s ensures x <= y {
        assert y !in rest;
      }
      assert IsLeast(x, s);
    } else {
      LeastExists(rest);
      var m :| IsLeast(m, rest);
      var least := if x < m then x else m;
      forall y | y in s ensures least <= y {
        if y != x {
          assert y in rest;
        }
      }
      assert IsLeast(least, s);
    }
  }

  /** Looking up canonical values compares them as they are. */
  lemma MatchesExactlyWhenCanonical(u: User, name: string, mail: string)
    requires IsCanonical(name) && IsCanonical(mail)
    ensures MatchesUsernameOrEmail(u, Some(name), Some(mail)) <==> u.username == name || u.email == mail
  {
    CanonicalFixesExactlyCanonical(name);
    CanonicalFixesExactlyCanonical(mail);
  }

  /** `User.findOne({ $or: [{ username }, { email }] })`. Which of several
      matching documents the database returns is not specified; this model
      returns the one with the least id. */
  function FindOne(store: Store, username: Field, email: Field): (r: Option<Id>)
    ensures r.None? <==> forall id :: id in store ==> !MatchesUsernameOrEmail(store[id], username, email)
    ensures r.Some? ==> r.value in store && MatchesUsernameOrEmail(store[r.value], username, email)
    ensures r.Some? ==> forall id :: id in store && MatchesUsernameOrEmail(store[id], username, email) ==> r.value <= id
  {
    var hits := Matching(store, username, email);
    if hits == {} then None else Some(Least(hits))
  }

  /** The ids of every document the `$or` filter selects. */
  function Matching(store: Store, username: Field, email: Field): (hits: set<Id>)
    ensures forall id :: id in hits <==> id in store && MatchesUsernameOrEmail(store[id], username, email)
  {
    set id | id in store && MatchesUsernameOrEmail(store[id], username, email)
  }
}
